=== FILE: README.md ===
# Video-platform controllers in Dafny

This project models the content-mutation and feed-derivation logic of a
video-sharing backend. The logic lives in four request handlers' modules:
videos, playlists, comments and tweets. The model is a pure state machine
over an in-memory entity store:

- **The store** (`Entities.Store`) holds one finite map per collection: videos, comments, tweets, playlists, likes and users. A store-wide counter `nextId` hands out fresh ids. `Entities.Valid` is the well-formedness every handler preserves: every id is below `nextId`, and the arrays kept with `$addToSet` (playlist videos, watch histories) hold no duplicates.
- **A mutating handler** is a function `(store, viewer, arguments) -> Result<Step<output>>`. A failure is one of `BadRequest400`, `NotFound404`, `Forbidden403` or `Internal500`, and carries no store, so a failed request changes nothing. A success carries the new store and the response data.
- **A listing** is a function over sequences. It filters a scan of a collection (`Seqs.Entries`, ascending id order standing in for the natural order), derives the like-based fields, sorts (`Sorting.SortBy`, an insertion sort proved sorted and a permutation), and, where the handler paginates, takes a window (`Pagination.Paginate`).
- **Request ids** are `RawId`: either a well-formed `ObjectId(id)` or `Malformed`.
- **Media uploads** appear as `Option<Upload>` parameters; `None` means the media store reported a failure. The deletion hook's answer is never used by the handlers. The handlers that discard media return the public ids they hand to it.
- **Time** is a `now: int` parameter. The `generated` parameter of the feed is the id that `new ObjectId(undefined)` would produce.

The handlers' quirks are reproduced, not repaired:

- Without a `userId` the feed matches a freshly generated owner id, so it is empty.
- `getVideoById`'s not-found check never fires. An unknown video yields no data; the view increment then matches no document, but the id is still added to the viewer's watch history.
- `updateVideo` answers 403, not 404, for an absent video.
- `getPlaylistById` never validates its id, so a malformed id gives 500. It returns the whole playlist as soon as one of its videos is published, and nothing otherwise.
- Playlist add and remove authorise on the video's owner, never the playlist's.
- The comment handlers never validate ids: `getVideoComments`, `updateComment` and `deleteComment` answer 500 for a malformed id, while `addComment` answers 200 and stores nothing. They never await the video lookup, and `addComment` does not await the creation.
- `deleteComment` removes only the viewer's likes on the comment.
- The tweet handlers answer 400 to a non-owner.
- `deleteTweet` leaves the tweet's likes in place.

## Model

| member | source | states |
|---|---|---|
| Videos.VideoFeed | src/controllers/video.controller.js:26-74 | A video is in the feed iff it is stored, passes the text filter when a query is given, belongs to the matched owner, is published and has an owner user document; each such video appears exactly once (the length is the number of eligible stored videos); the feed is sorted on the chosen field and direction |
| Videos.Eligible | src/controllers/video.controller.js:15-74 | The filter stages keep exactly the stored videos that pass the text search, owner match and published match and have an owner user document, each once: the count equals the number of such stored videos |
| Videos.FeedOrder | src/controllers/video.controller.js:41-53 | Without both sortBy and sortType the feed is createdAt descending; with both it is ascending on sortBy iff sortType is "asc", descending for any other value |
| Videos.GetAllVideos | src/controllers/video.controller.js:12-84 | Fails exactly for a malformed userId (400) or an empty one (500, from `new ObjectId("")`); every served video is stored, published and owned by the matched owner; the served items are the requested page's slice of the sorted feed and the total count is the number of eligible stored videos |
| Videos.FeedWithoutUserIdIsEmpty | src/controllers/video.controller.js:31-35 | Without a userId the owner match uses a freshly generated id, so the feed is empty |
| Videos.PublishAVideo | src/controllers/video.controller.js:86-129 | Checks in order: blank title or description (400), a files object missing a field (500), missing file path (400), failed upload (500); success iff all pass and title and description are present; the new video is fresh, owned by the viewer, unpublished, with 0 views, the uploaded video's URL, public id and duration, the uploaded thumbnail's URL and public id, and the request time as createdAt, and nothing else in the store changes |
| Videos.GetVideoById | src/controllers/video.controller.js:131-241 | Fails (400) iff the id is malformed; data is present iff the video exists; likesCount is the number of likes on the video and isLiked holds iff the viewer made one of them; views grow by exactly 1; the id is in the viewer's watch history exactly once, other entries kept; nothing else changes |
| Videos.RepeatedViews | src/controllers/video.controller.js:227-236 | Two views add 2 to the view count but leave a single watch-history entry |
| Videos.UpdateVideo | src/controllers/video.controller.js:243-292 | Checks in order: malformed id (400), missing title or description (400), absent video or non-owner (403), no file (500), empty path (400), failed upload (400); on success only title, description and thumbnail change, and the old thumbnail's public id is discarded |
| Videos.DeleteVideo | src/controllers/video.controller.js:294-321 | Checks in order: 400, 404, 403; on success the video, every like on it and every comment on it are gone, every other video, like and comment is kept unchanged, and both media public ids are discarded |
| Videos.DeletedVideoIsGone | src/controllers/video.controller.js:306-317 | After a delete, the video's detail lookup yields nothing and no like counts against it |
| Videos.TogglePublishStatus | src/controllers/video.controller.js:323-361 | Checks in order: 400, 404, 403; on success only isPublished flips, and the output is the new value |
| Videos.ToggleTwiceRestores | src/controllers/video.controller.js:338-348 | Toggling twice restores the store exactly |
| Videos.PublishToggleScenario | src/controllers/video.controller.js:332-348 | A new video is unpublished; its owner's toggle publishes it; another user's toggle is refused with 403 and the flag stays |
| Videos.PublishedVideoJoinsFeed | src/controllers/video.controller.js:31-40 | A video published and then toggled public by its owner appears in that owner's feed |
| Playlists.CreatePlaylist | src/controllers/playlist.controller.js:8-24 | Fails (400) iff name or description is falsy; the new playlist is fresh, empty and owned by the viewer; nothing else changes |
| Playlists.Resolved | src/controllers/playlist.controller.js:90-97 | A joined video is exactly a stored video whose id the playlist lists |
| Playlists.TotalVideosCounts | src/controllers/playlist.controller.js:37-49 | totalVideos is the number of listed ids that name a stored video |
| Playlists.TotalVideosBound | src/controllers/playlist.controller.js:37-49 | totalVideos never exceeds the length of the playlist's id list |
| Playlists.OwnedSummaries | src/controllers/playlist.controller.js:31-65 | One summary per playlist the user owns, each carrying that playlist's name, description and video count, and nothing else |
| Playlists.GetUserPlaylists | src/controllers/playlist.controller.js:26-71 | Fails (400) iff the id is malformed; otherwise one summary per playlist the user owns, each carrying that playlist's name, description and video count |
| Playlists.CreatedPlaylistIsListed | src/controllers/playlist.controller.js:8-49 | A playlist just created by a user is listed among that user's playlists with 0 videos |
| Playlists.GetPlaylistById | src/controllers/playlist.controller.js:73-159 | A malformed id gives 500 and an absent playlist 404; data is present iff some listed id names a published stored video; then the resolved videos are exactly the stored listed ones, counted by totalVideos, and the owner is present iff it has a user document |
| Playlists.MembershipGuardCases | src/controllers/playlist.controller.js:163-179 | A malformed id gives 400; then a missing playlist or video gives 404; 403 exactly when the playlist has an owner and the video's owner is not the viewer |
| Playlists.AddVideoToPlaylist | src/controllers/playlist.controller.js:161-203 | Fails exactly as the guard does; on success the video is in the list exactly once, the list is unchanged if it held the video, no other entry is added or lost, and no other field or playlist changes |
| Playlists.RemoveVideoFromPlaylist | src/controllers/playlist.controller.js:205-247 | Fails exactly as the guard does; on success the video is absent from the list, every other entry is kept, and nothing else changes |
| Playlists.RemoveKeepsOrder | src/controllers/playlist.controller.js:224-234 | Removing works entry by entry, so the kept entries stay in their original order |
| Playlists.AddThenRemoveRestores | src/controllers/playlist.controller.js:180-234 | Adding a video the playlist lacked and then removing it restores the store exactly |
| Playlists.AddIgnoresPlaylistOwner | src/controllers/playlist.controller.js:174-179 | Any viewer may add their own video to any existing playlist |
| Playlists.DeletePlaylist | src/controllers/playlist.controller.js:249-273 | Checks in order: 400, 404, 500 for a playlist without owner, 403; success iff the viewer owns it; only that playlist is removed |
| Playlists.UpdatePlaylist | src/controllers/playlist.controller.js:275-314 | Checks in order: 400 id, 400 fields, 404, 403 (also for a playlist without owner); on success only name and description change |
| Comments.CommentThread | src/controllers/comment.controller.js:16-57 | Lists exactly the comments on the video, each with its like count, createdAt descending |
| Comments.ThreadCountsLikes | src/controllers/comment.controller.js:31-41 | Each listed like count is the number of likes stored against the comment |
| Comments.ThreadLength | src/controllers/comment.controller.js:16-21 | The listing holds one item per comment on the video |
| Comments.GetVideoComments | src/controllers/comment.controller.js:9-82 | Fails (500) iff the id is malformed; totalItems is the number of comments on the video; every served item is such a comment with its content and like count; the served items are the requested page's slice of the sorted listing |
| Comments.CommentPage | src/controllers/comment.controller.js:72-77 | Page p is the p-th slice of the sorted listing, and all pages in turn reproduce it |
| Comments.AddComment | src/controllers/comment.controller.js:85-110 | Fails (400) iff content is falsy; a malformed video id stores nothing; otherwise a fresh comment owned by the viewer on that video is stored, whether or not the video exists |
| Comments.AddedCommentIsListed | src/controllers/comment.controller.js:97-101 | A comment just added appears in its video's listing with 0 likes |
| Comments.UpdateComment | src/controllers/comment.controller.js:113-145 | Checks in order: 400 content, 500 malformed id, 404, 500 for a comment without owner, 403; on success only the content changes |
| Comments.DeleteComment | src/controllers/comment.controller.js:148-180 | Checks in order: 500, 404, 404 for a comment without owner, 403; on success the comment is removed and a like is removed iff it is on the comment and by the viewer; nothing else changes |
| Comments.DeleteLeavesOthersLikes | src/controllers/comment.controller.js:172-175 | After the delete, other users' likes on the comment still count against it, and the viewer's do not |
| Tweets.CreateTweet | src/controllers/tweet.controller.js:7-17 | Fails (400) iff content is falsy; the new tweet is fresh and owned by the viewer; nothing else changes |
| Tweets.TweetItems | src/controllers/tweet.controller.js:24-77 | Lists exactly the user's tweets, one item per tweet, each with its like fields |
| Tweets.GetUserTweets | src/controllers/tweet.controller.js:19-96 | Fails (400) iff the id is malformed; lists exactly the user's tweets with like count and viewer flag, createdAt descending |
| Tweets.ListedLikeFields | src/controllers/tweet.controller.js:62-75 | Each listed count is the number of likes on the tweet (0 when none) and the flag holds iff the viewer made one of them |
| Tweets.UpdateTweet | src/controllers/tweet.controller.js:98-126 | Checks in order: 400 content, 400 id, 404, 400 for a non-owner; on success only the content changes |
| Tweets.CreateThenUpdate | src/controllers/tweet.controller.js:12-119 | Updating a just-created tweet as its author keeps author and creation time and holds the new content |
| Tweets.DeleteTweet | src/controllers/tweet.controller.js:128-144 | Checks in order: 400, 404, 400 for a non-owner; success iff the viewer owns the tweet; only the tweet is removed |
| Tweets.DeletedTweetKeepsLikes | src/controllers/tweet.controller.js:140 | Deleting a tweet leaves its likes and its like count as they were |
| Entities.LikesCountIsCardinality | src/controllers/video.controller.js:144-196 | The joined like count is the number of likes stored against the target |
| Entities.IsLikedIff | src/controllers/video.controller.js:200-206 | The joined flag holds iff the viewer made one of the likes stored against the target |
| Entities.NoLikesNoCount | src/controllers/tweet.controller.js:62-75 | With no like stored against a target, the count is 0 and the flag is false |
| Entities.RecordingALikeCounts | src/controllers/video.controller.js:193-196 | One more like on a target raises its count by exactly one |
| Entities.RecordingALikeFlags | src/controllers/video.controller.js:200-206 | A like by u sets u's flag and leaves every other viewer's flag as it was |
| Seqs.AddToSet | src/controllers/playlist.controller.js:180-190 | `$addToSet`: the value is present afterwards, nothing else is added or lost, a present value leaves the array unchanged, and a duplicate-free array stays duplicate-free with one occurrence |
| Seqs.Pull | src/controllers/playlist.controller.js:224-234 | `$pull`: the value is absent afterwards and every other value is kept |
| Seqs.AddThenPullRestores | src/controllers/playlist.controller.js:180-234 | `$pull` after `$addToSet` of a value the array lacked restores it |
| Sorting.SortBy | src/controllers/comment.controller.js:53-57 | The result is ordered on the key in the requested direction and is a permutation of the input |
| Pagination.EffectivePage | src/controllers/comment.controller.js:11 | The served page is at least 1, and is the requested page when that is at least 1 |
| Pagination.EffectiveLimit | src/controllers/comment.controller.js:11 | The page size defaults to 10 and is positive iff the requested size is |
| Pagination.Paginate | src/controllers/comment.controller.js:72-77 | The served page is the requested one (default 1), the items are that page's slice of the listing (at most limit of them), totalItems is the listing's length and totalPages is its ceiling division by the limit |
| Pagination.PageCountIsCeiling | src/controllers/comment.controller.js:72-77 | The page count is the least number of pages that holds every item |
| Pagination.AllPagesReproduce | src/controllers/comment.controller.js:72-77 | Reading every page in order reproduces the listing, each item once |
| Pagination.DefaultWindow | src/controllers/comment.controller.js:11 | Without page and limit the first ten items of page 1 are served |

## Left out

- Media storage: uploading and deleting files at the media provider is a foreign service. Uploads are parameters; deletions are reported as the public ids handed over. The `"video"` kind argument of the second deletion call is ignored by the one-argument deletion helper, and so does not appear in the model either.
- Text search: the `$search` stage is a full-text index. It is the opaque parameter `textMatch`.
- Subscriptions: the owner lookup's subscriber count and `isSubscribed` flag are not modelled.
- Response shapes: projections, the owner sub-documents (username, avatar), the response envelope and its swapped arguments, the misspelt projected fields, and timestamps other than `createdAt` are not modelled. Only the error code and the data the model's contracts speak about are kept.
- Routing and authentication: the viewer is a parameter and is assumed to be a non-null user id.
- Number parsing: `page` and `limit` arrive as already-parsed optional integers. A string that does not parse is not modelled.
- Pagination.EffectivePage: the paging library is not part of this model. The model assumes that a page below 1 is served as page 1.
- Pagination.EffectiveLimit: the model assumes that a page size below 1 is taken as 0 and yields an empty page. The paging library may instead substitute its own default size.
- Pagination.PageCount: the model assumes an empty listing reports 0 pages. The paging library may report at least one.
- Videos.GetAllVideos: the paging library receives the already-computed result array rather than a pipeline. The model assumes it windows that array as a plain slice.
- Sort fields: the feed's `sortBy` is restricted to the integer-valued fields createdAt, views and duration. Sorting on a string field such as the title is not modelled.
- Videos.PublishAVideo: duration is the media store's value taken as an integer; fractional durations are not modelled. A request that omits title or description passes the blank check. The model assumes the schema then rejects the document with a 500.
- Sorting.SortBy: ties keep the insertion-sort order, which the database does not guarantee for equal keys. The listing contracts of `Videos.GetAllVideos` and `Comments.GetVideoComments` name the slice of this one sorted sequence, so they fix an order among equal `createdAt` (or other sort-key) values that the database does not promise.
- Pagination.AllPagesReproduce: every page is a separate request, and the database may order equal sort keys differently on each. When equal keys straddle a page boundary, an item may then be served twice or not at all. "Each item once" (here and in `Comments.CommentPage`) holds only for the model's single fixed order.
- Playlists.GetPlaylistById: `totalViews` is computed as the sum of the resolved videos' views. No property beyond that definition is stated.
- Playlists.Resolved: the joined videos are taken in collection order. The database does not promise an order for a `$lookup` result.
- Comments.AddComment: the creation is never awaited. For a malformed video id it fails after the response is sent, and nothing handles that failure; under the runtime's default policy for unhandled rejections this ends the server process. The model records only that the request succeeds and stores nothing.
- Comment like flag: the viewer's like flag on a listed comment is computed by the pipeline but projected away, so it is absent.
- Concurrency: requests are sequential. Check-then-act races, and the resulting "failed to update/delete" branches that only a concurrent delete can reach, are not modelled.
- The like, user and subscription controllers and the database schemas are not part of this model. A like is recorded only through `Entities.WithLike`, which is used to state properties of the like-derived fields.

=== FILE: comments.dfy ===
/** The comment controller: the paginated comment listing of a video, adding
    a comment, and the owner-only update and delete. None of its handlers
    validates an id. In the listing, the update and the delete a malformed
    id throws and surfaces as a 500; `addComment` answers before anything
    can throw, so it succeeds and stores nothing. */
module Comments {
  import opened Types
  import opened Seqs
  import opened Sorting
  import opened Pagination
  import opened Entities

  // ---------------------------------------------------------------------
  // getVideoComments

  /** One listed comment. The pipeline computes whether the viewer liked the
      comment but projects that field away, so the item does not carry it.
      `author` is the first user joined on the comment's owner, if any. */
  datatype CommentItem = CommentItem(id: Id, content: string, createdAt: int, likesCount: nat, author: Option<Id>)

  function OnVideoFilter(video: Id): Keyed<Comment> -> bool {
    (e: Keyed<Comment>) => e.val.video == video
  }

  /** The owner lookup and `$first`: the owner when a user document exists for it. */
  function Author(s: Store, c: Comment): Option<Id> {
    if c.owner.Some? && c.owner.value in s.users then c.owner else None
  }

  function Item(s: Store, e: Keyed<Comment>): CommentItem {
    CommentItem(e.id, e.val.content, e.val.createdAt, LikesCount(s, OnComment(e.id)), Author(s, e.val))
  }

  function ItemCreatedAt(it: CommentItem): int {
    it.createdAt
  }

  /** The comments of `video` in scan order, each with its like count. */
  function ThreadItems(s: Store, video: Id): (r: seq<CommentItem>)
    requires Valid(s)
    ensures forall k :: k in s.comments && s.comments[k].video == video ==> Item(s, Keyed(k, s.comments[k])) in r
    ensures forall it :: it in r ==>
      && it.id in s.comments
      && s.comments[it.id].video == video
      && it == Item(s, Keyed(it.id, s.comments[it.id]))
  {
    var matched := Filter(Entries(s.comments, s.nextId), OnVideoFilter(video));
    var items := MapSeq(matched, (e: Keyed<Comment>) => Item(s, e));
    assert forall i :: 0 <= i < |items| ==> matched[i] in matched && items[i] == Item(s, matched[i]);
    forall k | k in s.comments && s.comments[k].video == video
      ensures Item(s, Keyed(k, s.comments[k])) in items
    {
      assert Keyed(k, s.comments[k]) in matched;
      MapSeqHas(matched, (e: Keyed<Comment>) => Item(s, e), Keyed(k, s.comments[k]));
    }
    items
  }

  /** The comments of `video`, each with its like count, newest first. */
  function CommentThread(s: Store, video: Id): (r: seq<CommentItem>)
    requires Valid(s)
    ensures forall k :: k in s.comments && s.comments[k].video == video ==> Item(s, Keyed(k, s.comments[k])) in r
    ensures forall it :: it in r ==>
      && it.id in s.comments
      && s.comments[it.id].video == video
      && it == Item(s, Keyed(it.id, s.comments[it.id]))
    ensures Sorted(r, ItemCreatedAt, false)
  {
    var items := ThreadItems(s, video);
    SortBySameElements(items, ItemCreatedAt, false);
    SortBy(items, ItemCreatedAt, false)
  }

  /** Each listed comment's count is the number of likes stored against it. */
  lemma ThreadCountsLikes(s: Store, video: Id, it: CommentItem)
    requires Valid(s)
    requires it in CommentThread(s, video)
    ensures it.likesCount == |LikeIdsOn(s, OnComment(it.id))|
  {
    LikesCountIsCardinality(s, OnComment(it.id));
  }

  /** A page of the video's comments. The video is never checked for
      existence (the lookup is not awaited), so an unknown video is not
      rejected; its page lists whatever comments name its id. A malformed
      id throws in `new ObjectId`. */
  function GetVideoComments(s: Store, videoId: RawId, page: Option<int>, limit: Option<int>): (r: Result<Page<CommentItem>>)
    requires Valid(s)
    ensures r.Fail? <==> videoId.Malformed?
    ensures r.Fail? ==> r.err == Internal500
    ensures r.Ok? ==> r.value.totalItems == |(set k | k in s.comments && s.comments[k].video == videoId.id)|
    ensures r.Ok? ==> forall it :: it in r.value.items ==>
      && it.id in s.comments
      && s.comments[it.id].video == videoId.id
      && it.content == s.comments[it.id].content
      && it.likesCount == LikesCount(s, OnComment(it.id))
    ensures r.Ok? ==> |r.value.items| <= r.value.limit
    ensures r.Ok? ==>
      r.value.items == Slice(CommentThread(s, videoId.id), EffectivePage(page), EffectiveLimit(limit))
  {
    if videoId.Malformed? then Fail(Internal500)
    else
      var thread := CommentThread(s, videoId.id);
      ThreadLength(s, videoId.id);
      Ok(Paginate(thread, page, limit))
  }

  /** Windowing comes last: page `p` is the `p`-th slice of the sorted
      thread, and reading every page in turn yields the whole thread. */
  lemma CommentPage(s: Store, video: Id, p: nat, limit: nat)
    requires Valid(s)
    requires p >= 1 && limit > 0
    ensures var thread := CommentThread(s, video);
      && GetVideoComments(s, ObjectId(video), Some(p), Some(limit)).value.items == Slice(thread, p, limit)
      && Pages(thread, limit, PageCount(|thread|, limit)) == thread
  {
    AllPagesReproduce(CommentThread(s, video), limit);
  }

  /** The listing holds one item per comment on the video. */
  lemma ThreadLength(s: Store, video: Id)
    requires Valid(s)
    ensures |CommentThread(s, video)| == |(set k | k in s.comments && s.comments[k].video == video)|
  {
    FilterEntriesCount(s.comments, s.nextId, OnVideoFilter(video));
    assert MatchingIds(s.comments, s.nextId, OnVideoFilter(video)) == set k | k in s.comments && s.comments[k].video == video;
  }

  // ---------------------------------------------------------------------
  // addComment

  /** Neither the video lookup nor the creation is awaited: the video is
      never checked, the response goes out before the document is written,
      and it carries no comment data. A malformed video id makes the
      detached creation fail, so nothing is stored; otherwise the comment
      is stored even when the video does not exist. */
  function AddComment(s: Store, viewer: Id, videoId: RawId, content: Option<string>, now: int): (r: Result<Step<()>>)
    requires Valid(s)
    ensures r.Fail? <==> Falsy(content)
    ensures r.Fail? ==> r.err == BadRequest400
    ensures r.Ok? && videoId.Malformed? ==> r.value.store == s
    ensures r.Ok? && videoId.ObjectId? ==>
      var id := s.nextId;
      && id !in s.comments
      && r.value.store.comments == s.comments[id := Comment(content.value, Some(viewer), videoId.id, now)]
      && r.value.store.(comments := s.comments, nextId := s.nextId) == s
      && Valid(r.value.store)
  {
    if Falsy(content) then Fail(BadRequest400)
    else if videoId.Malformed? then Ok(Step(s, ()))
    else
      var c := Comment(content.value, Some(viewer), videoId.id, now);
      Ok(Step(s.(comments := s.comments[s.nextId := c], nextId := s.nextId + 1), ()))
  }

  /** A comment added to a video appears in that video's listing, with no likes. */
  lemma AddedCommentIsListed(s: Store, viewer: Id, video: Id, content: string, now: int)
    requires Valid(s)
    requires content != ""
    requires LikeIdsOn(s, OnComment(s.nextId)) == {}
    ensures var s' := AddComment(s, viewer, ObjectId(video), Some(content), now).value.store;
      CommentItem(s.nextId, content, now, 0, Author(s, Comment(content, Some(viewer), video, now)))
        in CommentThread(s', video)
  {
    var s' := AddComment(s, viewer, ObjectId(video), Some(content), now).value.store;
    assert LikeIdsOn(s', OnComment(s.nextId)) == {};
    NoLikesNoCount(s', viewer, OnComment(s.nextId));
  }

  // ---------------------------------------------------------------------
  // updateComment / deleteComment

  /** The author replaces the content. A stored comment without an owner
      makes `comment.owner.toString()` throw, which becomes a 500. */
  function UpdateComment(s: Store, viewer: Id, commentId: RawId, content: Option<string>): (r: Result<Step<Keyed<Comment>>>)
    requires Valid(s)
    ensures Falsy(content) ==> r == Fail(BadRequest400)
    ensures !Falsy(content) && commentId.Malformed? ==> r == Fail(Internal500)
    ensures !Falsy(content) && commentId.ObjectId? && commentId.id !in s.comments ==> r == Fail(NotFound404)
    ensures (!Falsy(content) && commentId.ObjectId? && commentId.id in s.comments
             && s.comments[commentId.id].owner.None?)
      ==> r == Fail(Internal500)
    ensures (!Falsy(content) && commentId.ObjectId? && commentId.id in s.comments
             && s.comments[commentId.id].owner.Some? && s.comments[commentId.id].owner != Some(viewer))
      ==> r == Fail(Forbidden403)
    ensures r.Ok? <==>
      && !Falsy(content) && commentId.ObjectId?
      && commentId.id in s.comments && s.comments[commentId.id].owner == Some(viewer)
    ensures r.Ok? ==> commentId.id in r.value.store.comments
    ensures r.Ok? ==>
      var id := commentId.id;
      && r.value.store.comments == s.comments[id := s.comments[id].(content := content.value)]
      && r.value.store.(comments := s.comments) == s
      && r.value.out == Keyed(id, r.value.store.comments[id])
      && Valid(r.value.store)
  {
    if Falsy(content) then Fail(BadRequest400)
    else if commentId.Malformed? then Fail(Internal500)
    else if commentId.id !in s.comments then Fail(NotFound404)
    else if s.comments[commentId.id].owner.None? then Fail(Internal500)
    else if s.comments[commentId.id].owner != Some(viewer) then Fail(Forbidden403)
    else
      var id := commentId.id;
      var c := s.comments[id].(content := content.value);
      Ok(Step(s.(comments := s.comments[id := c]), Keyed(id, c)))
  }

  /** The likes the delete handler removes: those on the comment that the
      viewer made. Other users' likes on the comment stay behind. */
  predicate RemovedLike(id: Id, viewer: Id, l: Like) {
    l.target == OnComment(id) && l.likedBy == viewer
  }

  /** The author deletes the comment; the output is its id. A stored
      comment without an owner is reported as 404. */
  function DeleteComment(s: Store, viewer: Id, commentId: RawId): (r: Result<Step<Id>>)
    requires Valid(s)
    ensures commentId.Malformed? ==> r == Fail(Internal500)
    ensures commentId.ObjectId? && commentId.id !in s.comments ==> r == Fail(NotFound404)
    ensures commentId.ObjectId? && commentId.id in s.comments && s.comments[commentId.id].owner.None?
      ==> r == Fail(NotFound404)
    ensures (commentId.ObjectId? && commentId.id in s.comments && s.comments[commentId.id].owner.Some?
             && s.comments[commentId.id].owner != Some(viewer))
      ==> r == Fail(Forbidden403)
    ensures r.Ok? <==>
      commentId.ObjectId? && commentId.id in s.comments && s.comments[commentId.id].owner == Some(viewer)
    ensures r.Ok? ==>
      var id := commentId.id;
      var s' := r.value.store;
      && s'.comments == s.comments - {id}
      && (forall k :: k in s'.likes <==> k in s.likes && !RemovedLike(id, viewer, s.likes[k]))
      && (forall k :: k in s'.likes ==> s'.likes[k] == s.likes[k])
      && s'.(comments := s.comments, likes := s.likes) == s
      && r.value.out == id
      && Valid(s')
  {
    if commentId.Malformed? then Fail(Internal500)
    else if commentId.id !in s.comments then Fail(NotFound404)
    else if s.comments[commentId.id].owner.None? then Fail(NotFound404)
    else if s.comments[commentId.id].owner != Some(viewer) then Fail(Forbidden403)
    else
      var id := commentId.id;
      var likes := map k | k in s.likes && !RemovedLike(id, viewer, s.likes[k]) :: s.likes[k];
      Ok(Step(s.(comments := s.comments - {id}, likes := likes), id))
  }

  /** After the author deletes a comment, the likes other users left on it
      are still stored and still counted against it. */
  lemma DeleteLeavesOthersLikes(s: Store, viewer: Id, id: Id)
    requires Valid(s)
    requires DeleteComment(s, viewer, ObjectId(id)).Ok?
    ensures var s' := DeleteComment(s, viewer, ObjectId(id)).value.store;
      && LikeIdsOn(s', OnComment(id)) == set k | k in s.likes && s.likes[k].target == OnComment(id) && s.likes[k].likedBy != viewer
      && !IsLiked(s', viewer, OnComment(id))
  {
    var s' := DeleteComment(s, viewer, ObjectId(id)).value.store;
    IsLikedIff(s', viewer, OnComment(id));
  }
}

=== FILE: entities.dfy ===
/** The entity store the controllers read and write: one map per collection,
    keyed by id, and the like-derived fields every listing computes. */
module Entities {
  import opened Types
  import opened Seqs

  /** A media-store asset: its public URL and the id used to delete it. */
  datatype Asset = Asset(url: string, publicId: string)

  datatype Video = Video(
    title: string,
    description: string,
    duration: int,
    views: nat,
    isPublished: bool,
    videoFile: Asset,
    thumbnail: Asset,
    owner: Id,
    createdAt: int)

  /** A comment's owner may be missing from the stored document; the delete
      handler tests for that case. */
  datatype Comment = Comment(content: string, owner: Option<Id>, video: Id, createdAt: int)

  datatype Tweet = Tweet(content: string, owner: Id, createdAt: int)

  /** A playlist's owner may be missing from the stored document; adding and
      removing a video then skip the ownership check, deleting throws (a
      500) and updating refuses (a 403). */
  datatype Playlist = Playlist(name: string, description: string, owner: Option<Id>, videos: seq<Id>, createdAt: int)

  /** The one document a like points at. */
  datatype Target = OnVideo(id: Id) | OnComment(id: Id) | OnTweet(id: Id)

  datatype Like = Like(likedBy: Id, target: Target)

  /** The part of a user document the core touches. */
  datatype User = User(watchHistory: seq<Id>)

  datatype Store = Store(
    videos: map<Id, Video>,
    comments: map<Id, Comment>,
    tweets: map<Id, Tweet>,
    playlists: map<Id, Playlist>,
    likes: map<Id, Like>,
    users: map<Id, User>,
    nextId: Id)

  /** The outcome of a successful mutation: the new store and the response data. */
  datatype Step<T> = Step(store: Store, out: T)

  /** Store well-formedness: every id in use is below the next fresh id, and
      the arrays maintained with `$addToSet` hold no duplicates. */
  ghost predicate Valid(s: Store) {
    && (forall k :: k in s.videos ==> k < s.nextId)
    && (forall k :: k in s.comments ==> k < s.nextId)
    && (forall k :: k in s.tweets ==> k < s.nextId)
    && (forall k :: k in s.playlists ==> k < s.nextId)
    && (forall k :: k in s.likes ==> k < s.nextId)
    && (forall k :: k in s.users ==> k < s.nextId)
    && (forall k :: k in s.playlists ==> NoDup(s.playlists[k].videos))
    && (forall k :: k in s.users ==> NoDup(s.users[k].watchHistory))
  }

  /** The `$lookup` stage against the likes collection: the likes whose
      target is `t`, in scan order. */
  function LikesOn(s: Store, t: Target): seq<Keyed<Like>> {
    Filter(Entries(s.likes, s.nextId), TargetIs(t))
  }

  function TargetIs(t: Target): Keyed<Like> -> bool {
    (e: Keyed<Like>) => e.val.target == t
  }

  /** `$size` of the joined likes. */
  function LikesCount(s: Store, t: Target): nat {
    |LikesOn(s, t)|
  }

  /** `$in: [viewer, "$likes.likedBy"]`. */
  function IsLiked(s: Store, viewer: Id, t: Target): bool {
    exists e :: e in LikesOn(s, t) && e.val.likedBy == viewer
  }

  /** The ids of the likes stored against `t`. */
  function LikeIdsOn(s: Store, t: Target): set<Id> {
    set k | k in s.likes && s.likes[k].target == t
  }

  /** The joined count is the number of likes stored against `t`. */
  lemma LikesCountIsCardinality(s: Store, t: Target)
    requires Valid(s)
    ensures LikesCount(s, t) == |LikeIdsOn(s, t)|
  {
    FilterEntriesCount(s.likes, s.nextId, TargetIs(t));
    assert MatchingIds(s.likes, s.nextId, TargetIs(t)) == LikeIdsOn(s, t);
  }

  /** The joined flag holds exactly when the viewer owns one of the likes
      stored against `t`. */
  lemma IsLikedIff(s: Store, viewer: Id, t: Target)
    requires Valid(s)
    ensures IsLiked(s, viewer, t)
        <==> exists k :: k in s.likes && s.likes[k].target == t && s.likes[k].likedBy == viewer
  {
    if k :| k in s.likes && s.likes[k].target == t && s.likes[k].likedBy == viewer {
      assert Keyed(k, s.likes[k]) in LikesOn(s, t);
    }
  }

  /** With no like on `t` the count is 0 and the flag is false, whoever asks. */
  lemma NoLikesNoCount(s: Store, viewer: Id, t: Target)
    requires Valid(s)
    requires LikeIdsOn(s, t) == {}
    ensures LikesCount(s, t) == 0 && !IsLiked(s, viewer, t)
  {
    LikesCountIsCardinality(s, t);
  }

  /** The store after the like controller (not part of this model) records a
      like on `t` by `u` under the next fresh id. */
  function WithLike(s: Store, u: Id, t: Target): Store {
    s.(likes := s.likes[s.nextId := Like(u, t)], nextId := s.nextId + 1)
  }

  lemma WithLikeValid(s: Store, u: Id, t: Target)
    requires Valid(s)
    ensures Valid(WithLike(s, u, t))
    ensures LikeIdsOn(WithLike(s, u, t), t) == LikeIdsOn(s, t) + {s.nextId}
    ensures s.nextId !in LikeIdsOn(s, t)
  {
  }

  /** Recording one more like on `t` raises its count by one. */
  lemma RecordingALikeCounts(s: Store, u: Id, t: Target)
    requires Valid(s)
    ensures LikesCount(WithLike(s, u, t), t) == LikesCount(s, t) + 1
  {
    WithLikeValid(s, u, t);
    LikesCountIsCardinality(s, t);
    LikesCountIsCardinality(WithLike(s, u, t), t);
  }

  /** Recording a like by `u` makes the flag true for `u` and leaves it as it
      was for every other viewer. */
  lemma RecordingALikeFlags(s: Store, u: Id, w: Id, t: Target)
    requires Valid(s)
    ensures IsLiked(WithLike(s, u, t), u, t)
    ensures w != u ==> (IsLiked(WithLike(s, u, t), w, t) <==> IsLiked(s, w, t))
  {
    var s' := WithLike(s, u, t);
    WithLikeValid(s, u, t);
    IsLikedIff(s', u, t);
    IsLikedIff(s', w, t);
    IsLikedIff(s, w, t);
    assert s'.likes[s.nextId].likedBy == u;
  }
}

=== FILE: pagination.dfy ===
/** The windowing `aggregatePaginate` applies to an ordered pipeline result:
    a 1-based page of at most `limit` documents, with the total document
    count and the number of pages. */
module Pagination {
  import opened Types

  datatype Page<T> = Page(items: seq<T>, totalItems: nat, totalPages: nat, page: nat, limit: nat)

  /** The controllers' destructuring defaults, `page = 1` and `limit = 10`. */
  const DefaultPage: nat := 1
  const DefaultLimit: nat := 10

  /** The page actually served: the default when absent, and never below 1. */
  function EffectivePage(page: Option<int>): (p: nat)
    ensures p >= 1
    ensures page.Some? && page.value >= 1 ==> p == page.value
  {
    match page
    case None => DefaultPage
    case Some(n) => if n < 1 then 1 else n
  }

  /** The page size actually used: the default when absent; a non-positive
      size yields no documents. */
  function EffectiveLimit(limit: Option<int>): (l: nat)
    ensures limit.None? ==> l == DefaultLimit
    ensures limit.Some? ==> (l > 0 <==> limit.value > 0)
  {
    match limit
    case None => DefaultLimit
    case Some(n) => if n < 1 then 0 else n
  }

  /** `ceil(total / limit)`, and 0 when the page size is 0. */
  function PageCount(total: nat, limit: nat): nat {
    if limit == 0 then 0 else (total + limit - 1) / limit
  }

  /** The page count is the least number of pages of size `limit` that holds
      `total` documents. */
  lemma PageCountIsCeiling(total: nat, limit: nat)
    requires limit > 0
    ensures total <= PageCount(total, limit) * limit
    ensures PageCount(total, limit) == 0 || (PageCount(total, limit) - 1) * limit < total
  {
  }

  /** Documents `[(p - 1) * limit, p * limit)` of `xs`, cut at its end. */
  function Slice<T>(xs: seq<T>, p: nat, limit: nat): (r: seq<T>)
    requires p >= 1
    ensures |r| <= limit
    ensures forall x :: x in r ==> x in xs
  {
    var lo := if (p - 1) * limit < |xs| then (p - 1) * limit else |xs|;
    var hi := if p * limit < |xs| then p * limit else |xs|;
    assert p * limit == (p - 1) * limit + limit;
    xs[lo..hi]
  }

  /** The response of one paginated listing. */
  function Paginate<T>(xs: seq<T>, page: Option<int>, limit: Option<int>): (r: Page<T>)
    ensures r.page == EffectivePage(page) && r.limit == EffectiveLimit(limit)
    ensures r.items == Slice(xs, r.page, r.limit)
    ensures r.totalPages == PageCount(|xs|, r.limit)
    ensures |r.items| <= r.limit
    ensures r.totalItems == |xs|
    ensures forall x :: x in r.items ==> x in xs
    ensures r.limit > 0 ==> r.totalItems <= r.totalPages * r.limit
  {
    var p := EffectivePage(page);
    var l := EffectiveLimit(limit);
    if l > 0 then PageCountIsCeiling(|xs|, l); Page(Slice(xs, p, l), |xs|, PageCount(|xs|, l), p, l)
    else Page(Slice(xs, p, l), |xs|, PageCount(|xs|, l), p, l)
  }

  /** Pages `1..k` laid end to end. */
  function Pages<T>(xs: seq<T>, limit: nat, k: nat): seq<T> {
    if k == 0 then [] else Pages(xs, limit, k - 1) + Slice(xs, k, limit)
  }

  /** The first `k` pages are the first `k * limit` documents. */
  lemma {:induction false} PagesArePrefix<T>(xs: seq<T>, limit: nat, k: nat)
    ensures Pages(xs, limit, k) == xs[..if k * limit < |xs| then k * limit else |xs|]
  {
    if k > 0 {
      PagesArePrefix(xs, limit, k - 1);
      assert k * limit == (k - 1) * limit + limit;
      var lo := if (k - 1) * limit < |xs| then (k - 1) * limit else |xs|;
      var hi := if k * limit < |xs| then k * limit else |xs|;
      assert xs[..lo] + xs[lo..hi] == xs[..hi];
    }
  }

  /** Reading every page in order reproduces the whole ordered result, each
      document exactly once. */
  lemma AllPagesReproduce<T>(xs: seq<T>, limit: nat)
    requires limit > 0
    ensures Pages(xs, limit, PageCount(|xs|, limit)) == xs
  {
    PageCountIsCeiling(|xs|, limit);
    PagesArePrefix(xs, limit, PageCount(|xs|, limit));
  }

  /** Without `page` and `limit` the listing serves its first ten documents. */
  lemma DefaultWindow<T>(xs: seq<T>)
    ensures Paginate(xs, None, None).items == xs[..if |xs| < 10 then |xs| else 10]
    ensures Paginate(xs, None, None).page == 1 && Paginate(xs, None, None).limit == 10
  {
  }
}

=== FILE: playlists.dfy ===
/** The playlist controller: creation, the per-user listing with video
    counts, the detail view, adding and removing videos with array-set
    semantics, and the owner-only delete and update. */
module Playlists {
  import opened Types
  import opened Seqs
  import opened Entities

  // ---------------------------------------------------------------------
  // createPlaylist

  /** A new, empty playlist owned by the viewer. The response carries no
      playlist data, so the output is empty. */
  function CreatePlaylist(s: Store, viewer: Id, name: Option<string>, description: Option<string>, now: int): (r: Result<Step<()>>)
    requires Valid(s)
    ensures r.Fail? <==> Falsy(name) || Falsy(description)
    ensures r.Fail? ==> r.err == BadRequest400
    ensures r.Ok? ==>
      var s' := r.value.store;
      var id := s.nextId;
      && id !in s.playlists
      && s'.playlists.Keys == s.playlists.Keys + {id}
      && s'.playlists[id].owner == Some(viewer)
      && s'.playlists[id].videos == []
      && s'.playlists[id].name == name.value && s'.playlists[id].description == description.value
      && (forall k :: k in s.playlists ==> s'.playlists[k] == s.playlists[k])
      && s'.(playlists := s.playlists, nextId := s.nextId) == s
      && Valid(s')
  {
    if Falsy(name) || Falsy(description) then Fail(BadRequest400)
    else
      var p := Playlist(name.value, description.value, Some(viewer), [], now);
      Ok(Step(s.(playlists := s.playlists[s.nextId := p], nextId := s.nextId + 1), ()))
  }

  // ---------------------------------------------------------------------
  // Resolving a playlist's videos

  function InList(ids: seq<Id>): Keyed<Video> -> bool {
    (e: Keyed<Video>) => e.id in ids
  }

  /** The `$lookup` of a playlist's video ids against the videos collection:
      the stored videos whose id is listed, in collection order. Ids of
      deleted videos resolve to nothing. */
  function Resolved(s: Store, p: Playlist): (r: seq<Keyed<Video>>)
    requires Valid(s)
    ensures forall e :: e in r <==> e.id in p.videos && e.id in s.videos && e.val == s.videos[e.id]
  {
    Filter(Entries(s.videos, s.nextId), InList(p.videos))
  }

  /** `$size` of the resolved videos. */
  function TotalVideos(s: Store, p: Playlist): nat
    requires Valid(s)
  {
    |Resolved(s, p)|
  }

  /** The video count is the number of listed ids that name a stored video. */
  lemma TotalVideosCounts(s: Store, p: Playlist)
    requires Valid(s)
    ensures TotalVideos(s, p) == |(set v: Id | v in s.videos && v in p.videos)|
  {
    FilterEntriesCount(s.videos, s.nextId, InList(p.videos));
    forall k | k in s.videos
      ensures InList(p.videos)(Keyed(k, s.videos[k])) == (k in p.videos) && k < s.nextId
    {
    }
    assert MatchingIds(s.videos, s.nextId, InList(p.videos)) == set v: Id | v in s.videos && v in p.videos;
  }

  /** The video count never exceeds the length of the id list. */
  lemma TotalVideosBound(s: Store, p: Playlist)
    requires Valid(s)
    requires NoDup(p.videos)
    ensures TotalVideos(s, p) <= |p.videos|
  {
    TotalVideosCounts(s, p);
    var listed := set v: Id | v in p.videos;
    var stored := set v: Id | v in s.videos && v in p.videos;
    assert listed == stored + (listed - stored);
    assert stored * (listed - stored) == {};
    NoDupCardinality(p.videos);
  }

  /** A duplicate-free sequence has as many distinct members as elements. */
  lemma {:induction false} NoDupCardinality(xs: seq<Id>)
    requires NoDup(xs)
    ensures |(set v: Id | v in xs)| == |xs|
  {
    if |xs| > 0 {
      var tail := xs[1..];
      assert NoDup(tail);
      NoDupCardinality(tail);
      assert forall k :: 0 <= k < |tail| ==> tail[k] == xs[k + 1] != xs[0];
      var whole := set v: Id | v in xs;
      var rest := set v: Id | v in tail;
      assert xs[0] !in rest;
      assert whole == rest + {xs[0]};
      assert |whole| == |rest| + 1;
    } else {
      assert (set v: Id | v in xs) == {};
    }
  }

  // ---------------------------------------------------------------------
  // getUserPlaylists

  datatype PlaylistSummary = PlaylistSummary(id: Id, name: string, description: string, totalVideos: nat)

  function OwnedBy(user: Id): Keyed<Playlist> -> bool {
    (e: Keyed<Playlist>) => e.val.owner == Some(user)
  }

  function Summary(s: Store, e: Keyed<Playlist>): PlaylistSummary
    requires Valid(s)
  {
    PlaylistSummary(e.id, e.val.name, e.val.description, TotalVideos(s, e.val))
  }

  /** The playlists owned by `user`, in collection order, each with its
      video count. A playlist without an owner matches no user. */
  function OwnedSummaries(s: Store, user: Id): (r: seq<PlaylistSummary>)
    requires Valid(s)
    ensures |r| == |(set k | k in s.playlists && s.playlists[k].owner == Some(user))|
    ensures forall it :: it in r ==>
      && it.id in s.playlists
      && s.playlists[it.id].owner == Some(user)
      && it == Summary(s, Keyed(it.id, s.playlists[it.id]))
    ensures forall k :: k in s.playlists && s.playlists[k].owner == Some(user) ==>
      Summary(s, Keyed(k, s.playlists[k])) in r
  {
    var owned := Filter(Entries(s.playlists, s.nextId), OwnedBy(user));
    var r := MapSeq(owned, (e: Keyed<Playlist>) requires Valid(s) => Summary(s, e));
    assert forall i :: 0 <= i < |r| ==> owned[i] in owned && r[i] == Summary(s, owned[i]);
    forall k | k in s.playlists && s.playlists[k].owner == Some(user)
      ensures Summary(s, Keyed(k, s.playlists[k])) in r
    {
      assert Keyed(k, s.playlists[k]) in owned;
      MapSeqHas(owned, (e: Keyed<Playlist>) requires Valid(s) => Summary(s, e), Keyed(k, s.playlists[k]));
    }
    FilterEntriesCount(s.playlists, s.nextId, OwnedBy(user));
    assert MatchingIds(s.playlists, s.nextId, OwnedBy(user))
      == set k | k in s.playlists && s.playlists[k].owner == Some(user);
    r
  }

  /** The playlists of `userId`; a malformed id is rejected. */
  function GetUserPlaylists(s: Store, userId: RawId): (r: Result<seq<PlaylistSummary>>)
    requires Valid(s)
    ensures r.Fail? <==> userId.Malformed?
    ensures r.Fail? ==> r.err == BadRequest400
    ensures r.Ok? ==> |r.value| == |(set k | k in s.playlists && s.playlists[k].owner == Some(userId.id))|
    ensures r.Ok? ==> forall it :: it in r.value ==>
      && it.id in s.playlists
      && s.playlists[it.id].owner == Some(userId.id)
      && it == Summary(s, Keyed(it.id, s.playlists[it.id]))
    ensures r.Ok? ==> forall k :: k in s.playlists && s.playlists[k].owner == Some(userId.id) ==>
      Summary(s, Keyed(k, s.playlists[k])) in r.value
  {
    if userId.Malformed? then Fail(BadRequest400)
    else Ok(OwnedSummaries(s, userId.id))
  }

  /** A playlist just created by `u` is listed among `u`'s playlists, with
      no videos. */
  lemma CreatedPlaylistIsListed(s: Store, u: Id, name: string, description: string, now: int)
    requires Valid(s)
    requires name != "" && description != ""
    ensures var s' := CreatePlaylist(s, u, Some(name), Some(description), now).value.store;
      && GetUserPlaylists(s', ObjectId(u)).Ok?
      && PlaylistSummary(s.nextId, name, description, 0) in GetUserPlaylists(s', ObjectId(u)).value
  {
    var s' := CreatePlaylist(s, u, Some(name), Some(description), now).value.store;
    TotalVideosCounts(s', s'.playlists[s.nextId]);
    assert (set v: Id | v in s'.videos && v in s'.playlists[s.nextId].videos) == {};
  }

  // ---------------------------------------------------------------------
  // getPlaylistById

  datatype PlaylistDetail = PlaylistDetail(
    id: Id,
    name: string,
    description: string,
    owner: Option<Id>,
    videos: seq<Keyed<Video>>,
    totalVideos: nat,
    totalViews: nat)

  function SumViews(vs: seq<Keyed<Video>>): nat {
    if |vs| == 0 then 0 else vs[0].val.views + SumViews(vs[1..])
  }

  /** The handler's id check tests the function `isValidObjectId` itself and
      never fires, so a malformed id reaches `findById`, whose cast error
      becomes a 500. The `$match` on `videos.isPublished` keeps the whole
      playlist, unpublished videos included, as soon as one resolved video is
      published, and drops it otherwise (the response then has no data).
      The owner is the first user joined on the playlist's owner, if any. */
  function GetPlaylistById(s: Store, playlistId: RawId): (r: Result<Option<PlaylistDetail>>)
    requires Valid(s)
    ensures playlistId.Malformed? ==> r == Fail(Internal500)
    ensures playlistId.ObjectId? && playlistId.id !in s.playlists ==> r == Fail(NotFound404)
    ensures r.Ok? <==> playlistId.ObjectId? && playlistId.id in s.playlists
    ensures r.Ok? ==>
      var p := s.playlists[playlistId.id];
      (r.value.Some? <==> exists k :: k in p.videos && k in s.videos && s.videos[k].isPublished)
    ensures r.Ok? && r.value.Some? ==>
      var p := s.playlists[playlistId.id];
      var d := r.value.value;
      && d.id == playlistId.id && d.name == p.name && d.description == p.description
      && (forall e :: e in d.videos <==> e.id in p.videos && e.id in s.videos && e.val == s.videos[e.id])
      && d.totalVideos == |d.videos|
      && d.totalVideos == |(set v: Id | v in s.videos && v in p.videos)|
      && d.owner == (if p.owner.Some? && p.owner.value in s.users then p.owner else None)
  {
    if playlistId.Malformed? then Fail(Internal500)
    else if playlistId.id !in s.playlists then Fail(NotFound404)
    else
      var p := s.playlists[playlistId.id];
      var vs := Resolved(s, p);
      if exists e :: e in vs && e.val.isPublished then
        TotalVideosCounts(s, p);
        var owner := if p.owner.Some? && p.owner.value in s.users then p.owner else None;
        Ok(Some(PlaylistDetail(playlistId.id, p.name, p.description, owner, vs, |vs|, SumViews(vs))))
      else
        assert forall k :: k in p.videos && k in s.videos ==> Keyed(k, s.videos[k]) in vs;
        Ok(None)
  }

  // ---------------------------------------------------------------------
  // addVideoToPlaylist / removeVideoFromPlaylist

  /** The guards both handlers share. Both documents are looked up, the
      playlist's absence is reported first, and 403 depends only on the
      video's owner: the playlist's owner is tested for presence, never
      compared with the viewer. */
  function MembershipGuard(s: Store, viewer: Id, playlistId: RawId, videoId: RawId): (r: Result<(Id, Id)>) {
    if playlistId.Malformed? || videoId.Malformed? then Fail(BadRequest400)
    else if playlistId.id !in s.playlists then Fail(NotFound404)
    else if videoId.id !in s.videos then Fail(NotFound404)
    else if s.playlists[playlistId.id].owner.Some? && s.videos[videoId.id].owner != viewer then Fail(Forbidden403)
    else Ok((playlistId.id, videoId.id))
  }

  /** The error cases of the membership guard, in order, and when it passes. */
  lemma MembershipGuardCases(s: Store, viewer: Id, playlistId: RawId, videoId: RawId)
    ensures var g := MembershipGuard(s, viewer, playlistId, videoId);
      && (playlistId.Malformed? || videoId.Malformed? ==> g == Fail(BadRequest400))
      && ((playlistId.ObjectId? && videoId.ObjectId? && (playlistId.id !in s.playlists || videoId.id !in s.videos))
            ==> g == Fail(NotFound404))
      && (g == Fail(Forbidden403) <==>
            && playlistId.ObjectId? && videoId.ObjectId?
            && playlistId.id in s.playlists && videoId.id in s.videos
            && s.playlists[playlistId.id].owner.Some? && s.videos[videoId.id].owner != viewer)
      && (g.Ok? ==> g.value == (playlistId.id, videoId.id))
  {
  }

  /** `$addToSet` of the video id on the playlist. */
  function AddVideoToPlaylist(s: Store, viewer: Id, playlistId: RawId, videoId: RawId): (r: Result<Step<Keyed<Playlist>>>)
    requires Valid(s)
    ensures r.Fail? <==> MembershipGuard(s, viewer, playlistId, videoId).Fail?
    ensures r.Fail? ==> r.err == MembershipGuard(s, viewer, playlistId, videoId).err
    ensures r.Ok? ==> playlistId.id in r.value.store.playlists
    ensures r.Ok? ==>
      var pid := playlistId.id;
      var vid := videoId.id;
      var before := s.playlists[pid].videos;
      var after := r.value.store.playlists[pid].videos;
      && pid in r.value.store.playlists
      && multiset(after)[vid] == 1
      && (forall x :: x in after <==> x in before || x == vid)
      && (vid in before ==> after == before)
      && r.value.store.playlists[pid].(videos := before) == s.playlists[pid]
      && r.value.store.playlists.Keys == s.playlists.Keys
      && (forall k :: k in s.playlists && k != pid ==> r.value.store.playlists[k] == s.playlists[k])
      && r.value.store.(playlists := s.playlists) == s
      && r.value.out == Keyed(pid, r.value.store.playlists[pid])
      && Valid(r.value.store)
  {
    match MembershipGuard(s, viewer, playlistId, videoId)
    case Fail(e) => Fail(e)
    case Ok((pid, vid)) =>
      var p := s.playlists[pid];
      var p' := p.(videos := AddToSet(p.videos, vid));
      Ok(Step(s.(playlists := s.playlists[pid := p']), Keyed(pid, p')))
  }

  /** `$pull` of the video id from the playlist. The video must still exist:
      the id of a deleted video can never be pulled. */
  function RemoveVideoFromPlaylist(s: Store, viewer: Id, playlistId: RawId, videoId: RawId): (r: Result<Step<Keyed<Playlist>>>)
    requires Valid(s)
    ensures r.Fail? <==> MembershipGuard(s, viewer, playlistId, videoId).Fail?
    ensures r.Fail? ==> r.err == MembershipGuard(s, viewer, playlistId, videoId).err
    ensures r.Ok? ==> playlistId.id in r.value.store.playlists
    ensures r.Ok? ==>
      var pid := playlistId.id;
      var vid := videoId.id;
      var before := s.playlists[pid].videos;
      var after := r.value.store.playlists[pid].videos;
      && pid in r.value.store.playlists
      && vid !in after
      && (forall x :: x != vid ==> (x in after <==> x in before))
      && (vid !in before ==> after == before)
      && r.value.store.playlists[pid].(videos := before) == s.playlists[pid]
      && r.value.store.playlists.Keys == s.playlists.Keys
      && (forall k :: k in s.playlists && k != pid ==> r.value.store.playlists[k] == s.playlists[k])
      && r.value.store.(playlists := s.playlists) == s
      && r.value.out == Keyed(pid, r.value.store.playlists[pid])
      && Valid(r.value.store)
  {
    match MembershipGuard(s, viewer, playlistId, videoId)
    case Fail(e) => Fail(e)
    case Ok((pid, vid)) =>
      var p := s.playlists[pid];
      PullNoDup(p.videos, vid);
      assert vid !in p.videos ==> Pull(p.videos, vid) == p.videos by {
        if vid !in p.videos { PullAbsent(p.videos, vid); }
      }
      var p' := p.(videos := Pull(p.videos, vid));
      Ok(Step(s.(playlists := s.playlists[pid := p']), Keyed(pid, p')))
  }

  /** Removing keeps the other entries in their original order: the new list
      is the old one with the id pulled out of each part. */
  lemma RemoveKeepsOrder(s: Store, viewer: Id, playlistId: RawId, videoId: RawId, front: seq<Id>, back: seq<Id>)
    requires Valid(s)
    requires RemoveVideoFromPlaylist(s, viewer, playlistId, videoId).Ok?
    requires s.playlists[playlistId.id].videos == front + back
    ensures RemoveVideoFromPlaylist(s, viewer, playlistId, videoId).value.store.playlists[playlistId.id].videos
      == Pull(front, videoId.id) + Pull(back, videoId.id)
  {
    PullConcat(front, back, videoId.id);
  }

  /** Adding a video the playlist did not hold and then removing it restores
      the store exactly. */
  lemma AddThenRemoveRestores(s: Store, viewer: Id, playlistId: RawId, videoId: RawId)
    requires Valid(s)
    requires AddVideoToPlaylist(s, viewer, playlistId, videoId).Ok?
    requires videoId.id !in s.playlists[playlistId.id].videos
    ensures var s1 := AddVideoToPlaylist(s, viewer, playlistId, videoId).value.store;
      && RemoveVideoFromPlaylist(s1, viewer, playlistId, videoId).Ok?
      && RemoveVideoFromPlaylist(s1, viewer, playlistId, videoId).value.store == s
  {
    var pid := playlistId.id;
    var vid := videoId.id;
    var p := s.playlists[pid];
    var s1 := AddVideoToPlaylist(s, viewer, playlistId, videoId).value.store;
    assert s1 == s.(playlists := s.playlists[pid := p.(videos := AddToSet(p.videos, vid))]);
    assert MembershipGuard(s1, viewer, playlistId, videoId) == Ok((pid, vid));
    AddThenPullRestores(p.videos, vid);
    var s2 := RemoveVideoFromPlaylist(s1, viewer, playlistId, videoId).value.store;
    assert s2.playlists == s.playlists[pid := p];
  }

  /** Anyone may add a video of their own to a playlist somebody else owns:
      the playlist's owner is never compared with the viewer. */
  lemma AddIgnoresPlaylistOwner(s: Store, viewer: Id, pid: Id, vid: Id)
    requires Valid(s)
    requires pid in s.playlists && vid in s.videos
    requires s.videos[vid].owner == viewer
    ensures AddVideoToPlaylist(s, viewer, ObjectId(pid), ObjectId(vid)).Ok?
  {
  }

  // ---------------------------------------------------------------------
  // deletePlaylist / updatePlaylist

  /** The owner deletes the playlist; the output is the deleted document.
      A stored playlist without an owner makes `playlist.owner.toString()`
      throw, which becomes a 500. */
  function DeletePlaylist(s: Store, viewer: Id, playlistId: RawId): (r: Result<Step<Keyed<Playlist>>>)
    requires Valid(s)
    ensures playlistId.Malformed? ==> r == Fail(BadRequest400)
    ensures playlistId.ObjectId? && playlistId.id !in s.playlists ==> r == Fail(NotFound404)
    ensures playlistId.ObjectId? && playlistId.id in s.playlists && s.playlists[playlistId.id].owner.None?
      ==> r == Fail(Internal500)
    ensures (playlistId.ObjectId? && playlistId.id in s.playlists && s.playlists[playlistId.id].owner.Some?
             && s.playlists[playlistId.id].owner != Some(viewer))
      ==> r == Fail(Forbidden403)
    ensures r.Ok? <==>
      playlistId.ObjectId? && playlistId.id in s.playlists && s.playlists[playlistId.id].owner == Some(viewer)
    ensures r.Ok? ==>
      && r.value.store.playlists.Keys == s.playlists.Keys - {playlistId.id}
      && (forall k :: k in r.value.store.playlists ==> r.value.store.playlists[k] == s.playlists[k])
      && r.value.store.(playlists := s.playlists) == s
      && r.value.out == Keyed(playlistId.id, s.playlists[playlistId.id])
      && Valid(r.value.store)
  {
    if playlistId.Malformed? then Fail(BadRequest400)
    else if playlistId.id !in s.playlists then Fail(NotFound404)
    else if s.playlists[playlistId.id].owner.None? then Fail(Internal500)
    else if s.playlists[playlistId.id].owner != Some(viewer) then Fail(Forbidden403)
    else
      var id := playlistId.id;
      Ok(Step(s.(playlists := s.playlists - {id}), Keyed(id, s.playlists[id])))
  }

  /** The owner replaces name and description; the owner and the video list
      stay. A playlist without an owner fails the comparison and yields 403. */
  function UpdatePlaylist(s: Store, viewer: Id, playlistId: RawId, name: Option<string>, description: Option<string>): (r: Result<Step<Keyed<Playlist>>>)
    requires Valid(s)
    ensures playlistId.Malformed? ==> r == Fail(BadRequest400)
    ensures playlistId.ObjectId? && (Falsy(name) || Falsy(description)) ==> r == Fail(BadRequest400)
    ensures (playlistId.ObjectId? && !Falsy(name) && !Falsy(description) && playlistId.id !in s.playlists)
      ==> r == Fail(NotFound404)
    ensures (playlistId.ObjectId? && !Falsy(name) && !Falsy(description) && playlistId.id in s.playlists
             && s.playlists[playlistId.id].owner != Some(viewer))
      ==> r == Fail(Forbidden403)
    ensures r.Ok? <==>
      && playlistId.ObjectId? && !Falsy(name) && !Falsy(description)
      && playlistId.id in s.playlists && s.playlists[playlistId.id].owner == Some(viewer)
    ensures r.Ok? ==>
      var id := playlistId.id;
      var p := s.playlists[id];
      && id in r.value.store.playlists
      && var p' := r.value.store.playlists[id];
      && p'.name == name.value && p'.description == description.value
      && p'.owner == p.owner && p'.videos == p.videos && p'.createdAt == p.createdAt
      && r.value.store.playlists.Keys == s.playlists.Keys
      && (forall k :: k in s.playlists && k != id ==> r.value.store.playlists[k] == s.playlists[k])
      && r.value.store.(playlists := s.playlists) == s
      && r.value.out == Keyed(id, p')
      && Valid(r.value.store)
  {
    if playlistId.Malformed? then Fail(BadRequest400)
    else if Falsy(name) || Falsy(description) then Fail(BadRequest400)
    else if playlistId.id !in s.playlists then Fail(NotFound404)
    else if s.playlists[playlistId.id].owner != Some(viewer) then Fail(Forbidden403)
    else
      var id := playlistId.id;
      var p' := s.playlists[id].(name := name.value, description := description.value);
      Ok(Step(s.(playlists := s.playlists[id := p']), Keyed(id, p')))
  }
}

=== FILE: seqs.dfy ===
/** Sequence operations the aggregation pipelines and the update operators
    are built from: a collection scan in id order, `$match`-style filtering,
    per-document derivation, and the `$addToSet` / `$pull` array operators. */
module Seqs {
  import opened Types

  /** A stored document together with its id. */
  datatype Keyed<V> = Keyed(id: Id, val: V)

  /** `$match`: keep the elements satisfying `p`, in their original order. */
  function Filter<T(!new)>(xs: seq<T>, p: T -> bool): (r: seq<T>)
    ensures |r| <= |xs|
    ensures forall x :: x in r <==> x in xs && p(x)
  {
    if |xs| == 0 then []
    else
      assert xs == [xs[0]] + xs[1..];
      (if p(xs[0]) then [xs[0]] else []) + Filter(xs[1..], p)
  }

  /** Filtering is applied element by element, so it distributes over
      concatenation: the relative order of the kept elements is the input's. */
  lemma {:induction false} FilterConcat<T(!new)>(a: seq<T>, b: seq<T>, p: T -> bool)
    ensures Filter(a + b, p) == Filter(a, p) + Filter(b, p)
  {
    if |a| == 0 {
      assert a + b == b;
    } else {
      assert (a + b)[1..] == a[1..] + b;
      FilterConcat(a[1..], b, p);
    }
  }

  /** `$addFields`: derive one output document per input document. */
  function MapSeq<A, B>(xs: seq<A>, f: A -> B): (r: seq<B>)
    ensures |r| == |xs|
    ensures forall i :: 0 <= i < |xs| ==> r[i] == f(xs[i])
  {
    seq(|xs|, i requires 0 <= i < |xs| => f(xs[i]))
  }

  /** Every input element's image appears in the derived sequence. */
  lemma MapSeqHas<A, B>(xs: seq<A>, f: A -> B, x: A)
    requires x in xs
    ensures f(x) in MapSeq(xs, f)
  {
    var i :| 0 <= i < |xs| && xs[i] == x;
    assert MapSeq(xs, f)[i] == f(x);
  }

  /** A collection scan: the documents of `m` whose id is below `n`, in
      increasing id order. */
  function Entries<V(!new)>(m: map<Id, V>, n: nat): (r: seq<Keyed<V>>)
    ensures forall e :: e in r <==> e.id < n && e.id in m && e.val == m[e.id]
  {
    if n == 0 then []
    else
      var prefix := Entries(m, n - 1);
      prefix + (if n - 1 in m then [Keyed(n - 1, m[n - 1])] else [])
  }

  /** The ids below `n` whose document in `m` satisfies `p`. */
  function MatchingIds<V(!new)>(m: map<Id, V>, n: nat, p: Keyed<V> -> bool): set<Id> {
    set k | k in m && k < n && p(Keyed(k, m[k]))
  }

  /** 1 when id `k` holds a document satisfying `p`, 0 otherwise. */
  function Hit<V>(m: map<Id, V>, k: Id, p: Keyed<V> -> bool): nat {
    if k in m && p(Keyed(k, m[k])) then 1 else 0
  }

  /** The number of ids below `n` holding a document that satisfies `p`,
      counted one id at a time. */
  function CountMatching<V>(m: map<Id, V>, n: nat, p: Keyed<V> -> bool): nat {
    if n == 0 then 0 else CountMatching(m, n - 1, p) + Hit(m, n - 1, p)
  }

  /** The scan up to `n` adds the document with id `n - 1`, if any. */
  lemma FilterEntriesStep<V(!new)>(m: map<Id, V>, n: nat, p: Keyed<V> -> bool)
    requires n > 0
    ensures |Filter(Entries(m, n), p)| == |Filter(Entries(m, n - 1), p)| + Hit(m, n - 1, p)
  {
    var tail := if n - 1 in m then [Keyed(n - 1, m[n - 1])] else [];
    FilterConcat(Entries(m, n - 1), tail, p);
    if n - 1 in m && p(Keyed(n - 1, m[n - 1])) {
      assert Filter(tail, p) == [Keyed(n - 1, m[n - 1])];
    } else {
      assert Filter(tail, p) == [];
    }
  }

  lemma {:induction false} FilterEntriesCountsMatches<V(!new)>(m: map<Id, V>, n: nat, p: Keyed<V> -> bool)
    ensures |Filter(Entries(m, n), p)| == CountMatching(m, n, p)
    decreases n
  {
    if n > 0 {
      FilterEntriesCountsMatches(m, n - 1, p);
      FilterEntriesStep(m, n, p);
    }
  }

  lemma {:induction false} CountMatchingIsCardinality<V(!new)>(m: map<Id, V>, n: nat, p: Keyed<V> -> bool)
    ensures CountMatching(m, n, p) == |MatchingIds(m, n, p)|
    decreases n
  {
    if n > 0 {
      CountMatchingIsCardinality(m, n - 1, p);
      var before := MatchingIds(m, n - 1, p);
      assert n - 1 !in before;
      if n - 1 in m && p(Keyed(n - 1, m[n - 1])) {
        assert MatchingIds(m, n, p) == before + {n - 1};
      } else {
        assert MatchingIds(m, n, p) == before;
      }
    } else {
      assert MatchingIds(m, 0, p) == {};
    }
  }

  /** The number of scanned documents a filter keeps is the number of ids
      below `n` whose document satisfies it: a join computed by one scan
      counts exactly the matching documents. */
  lemma FilterEntriesCount<V(!new)>(m: map<Id, V>, n: nat, p: Keyed<V> -> bool)
    ensures |Filter(Entries(m, n), p)| == |MatchingIds(m, n, p)|
  {
    FilterEntriesCountsMatches(m, n, p);
    CountMatchingIsCardinality(m, n, p);
  }

  predicate NoDup<T(==)>(xs: seq<T>) {
    forall i, j :: 0 <= i < j < |xs| ==> xs[i] != xs[j]
  }

  /** In a duplicate-free sequence every member occurs exactly once. */
  lemma {:induction false} NoDupOccursOnce<T>(xs: seq<T>, x: T)
    requires NoDup(xs)
    requires x in xs
    ensures multiset(xs)[x] == 1
  {
    assert xs == [xs[0]] + xs[1..];
    if xs[0] == x {
      assert forall k :: 0 <= k < |xs[1..]| ==> xs[1..][k] == xs[k + 1] != x;
    } else {
      NoDupOccursOnce(xs[1..], x);
    }
  }

  /** `$addToSet`: append `x` unless it is already present. */
  function AddToSet<T(==,!new)>(xs: seq<T>, x: T): (r: seq<T>)
    ensures forall y :: y in r <==> y in xs || y == x
    ensures x in xs ==> r == xs
    ensures NoDup(xs) ==> NoDup(r) && multiset(r)[x] == 1
  {
    if x in xs then
      (if NoDup(xs) then NoDupOccursOnce(xs, x); xs else xs)
    else
      var r := xs + [x];
      if NoDup(xs) then NoDupOccursOnce(r, x); r else r
  }

  /** `$pull`: remove every occurrence of `x`, keeping the other elements. */
  function Pull<T(==,!new)>(xs: seq<T>, x: T): (r: seq<T>)
    ensures x !in r
    ensures forall y :: y != x ==> (y in r <==> y in xs)
    ensures |r| <= |xs|
  {
    if |xs| == 0 then []
    else
      assert xs == [xs[0]] + xs[1..];
      (if xs[0] == x then [] else [xs[0]]) + Pull(xs[1..], x)
  }

  /** `$pull` works element by element: the entries it keeps stay in their
      original relative order. */
  lemma {:induction false} PullConcat<T(!new)>(a: seq<T>, b: seq<T>, x: T)
    ensures Pull(a + b, x) == Pull(a, x) + Pull(b, x)
  {
    if |a| == 0 {
      assert a + b == b;
    } else {
      var head := if a[0] == x then [] else [a[0]];
      assert (a + b)[0] == a[0];
      assert (a + b)[1..] == a[1..] + b;
      PullConcat(a[1..], b, x);
      assert Pull(a + b, x) == head + (Pull(a[1..], x) + Pull(b, x));
      assert Pull(a, x) == head + Pull(a[1..], x);
    }
  }

  /** Pulling a value that is absent changes nothing. */
  lemma {:induction false} PullAbsent<T(!new)>(xs: seq<T>, x: T)
    requires x !in xs
    ensures Pull(xs, x) == xs
  {
    if |xs| > 0 {
      assert xs == [xs[0]] + xs[1..];
      PullAbsent(xs[1..], x);
    }
  }

  /** `$pull` keeps the list free of duplicates. */
  lemma {:induction false} PullNoDup<T(!new)>(xs: seq<T>, x: T)
    requires NoDup(xs)
    ensures NoDup(Pull(xs, x))
  {
    if |xs| > 0 {
      assert xs == [xs[0]] + xs[1..];
      PullNoDup(xs[1..], x);
      var rest := Pull(xs[1..], x);
      assert forall k :: 0 <= k < |xs[1..]| ==> xs[1..][k] == xs[k + 1] != xs[0];
      assert xs[0] !in rest;
    }
  }

  /** `$addToSet` followed by `$pull` of the same value restores a list that
      did not hold it. */
  lemma AddThenPullRestores<T(!new)>(xs: seq<T>, x: T)
    requires x !in xs
    ensures Pull(AddToSet(xs, x), x) == xs
  {
    PullConcat(xs, [x], x);
    PullAbsent(xs, x);
    assert Pull([x], x) == [];
  }
}

=== FILE: sorting.dfy ===
/** The `$sort` stage on one integer-valued key, ascending (`1`) or
    descending (`-1`). */
module Sorting {

  /** `a` may precede `b` in the requested direction. */
  predicate InOrder(a: int, b: int, asc: bool) {
    if asc then a <= b else b <= a
  }

  /** Every earlier element's key precedes every later element's key. */
  ghost predicate Sorted<T>(xs: seq<T>, key: T -> int, asc: bool) {
    forall i, j :: 0 <= i < j < |xs| ==> InOrder(key(xs[i]), key(xs[j]), asc)
  }

  /** An element that may precede every element of a sorted sequence can be
      put in front of it. */
  lemma PrependSorted<T>(h: T, xs: seq<T>, key: T -> int, asc: bool)
    requires Sorted(xs, key, asc)
    requires forall k :: 0 <= k < |xs| ==> InOrder(key(h), key(xs[k]), asc)
    ensures Sorted([h] + xs, key, asc)
  {
    var r := [h] + xs;
    forall i, j | 0 <= i < j < |r|
      ensures InOrder(key(r[i]), key(r[j]), asc)
    {
      if i > 0 {
        assert r[i] == xs[i - 1] && r[j] == xs[j - 1];
      } else {
        assert r[j] == xs[j - 1];
      }
    }
  }

  /** Insert `x` before the first element it may precede. */
  function Insert<T>(x: T, xs: seq<T>, key: T -> int, asc: bool): (r: seq<T>)
    requires Sorted(xs, key, asc)
    ensures Sorted(r, key, asc)
    ensures multiset(r) == multiset(xs) + multiset{x}
    ensures |r| == |xs| + 1
  {
    if |xs| == 0 then [x]
    else if InOrder(key(x), key(xs[0]), asc) then
      PrependSorted(x, xs, key, asc);
      [x] + xs
    else
      var rest := Insert(x, xs[1..], key, asc);
      InsertBound(x, xs, rest, key, asc);
      PrependSorted(xs[0], rest, key, asc);
      assert xs == [xs[0]] + xs[1..];
      [xs[0]] + rest
  }

  /** The head of a sorted sequence still precedes everything once an element
      that it precedes is inserted into the tail. */
  lemma InsertBound<T>(x: T, xs: seq<T>, rest: seq<T>, key: T -> int, asc: bool)
    requires |xs| > 0
    requires Sorted(xs, key, asc)
    requires !InOrder(key(x), key(xs[0]), asc)
    requires multiset(rest) == multiset(xs[1..]) + multiset{x}
    ensures forall k :: 0 <= k < |rest| ==> InOrder(key(xs[0]), key(rest[k]), asc)
  {
    forall k | 0 <= k < |rest|
      ensures InOrder(key(xs[0]), key(rest[k]), asc)
    {
      assert rest[k] in multiset(rest);
      if rest[k] != x {
        assert rest[k] in multiset(xs[1..]);
        var i :| 0 <= i < |xs[1..]| && xs[1..][i] == rest[k];
        assert xs[i + 1] == rest[k];
      }
    }
  }

  /** Sort by `key` in the requested direction. */
  function SortBy<T>(xs: seq<T>, key: T -> int, asc: bool): (r: seq<T>)
    ensures Sorted(r, key, asc)
    ensures multiset(r) == multiset(xs)
    ensures |r| == |xs|
  {
    if |xs| == 0 then []
    else
      assert xs == [xs[0]] + xs[1..];
      Insert(xs[0], SortBy(xs[1..], key, asc), key, asc)
  }

  /** Sorting neither adds nor drops elements. */
  lemma SortBySameElements<T>(xs: seq<T>, key: T -> int, asc: bool)
    ensures forall x :: x in SortBy(xs, key, asc) <==> x in xs
  {
    var r := SortBy(xs, key, asc);
    assert forall x :: x in r <==> x in multiset(r);
    assert forall x :: x in xs <==> x in multiset(xs);
  }
}

=== FILE: tweets.dfy ===
/** The tweet controller: creation, a user's tweets with like-derived
    fields, and the owner-only update and delete. Unlike the other
    controllers, a non-owner is refused with 400. */
module Tweets {
  import opened Types
  import opened Seqs
  import opened Sorting
  import opened Entities

  // ---------------------------------------------------------------------
  // createTweet

  /** A new tweet owned by the viewer. The handler swaps the response's data
      and message arguments, so the created tweet travels in the message
      slot; the output here is that tweet. */
  function CreateTweet(s: Store, viewer: Id, content: Option<string>, now: int): (r: Result<Step<Keyed<Tweet>>>)
    requires Valid(s)
    ensures r.Fail? <==> Falsy(content)
    ensures r.Fail? ==> r.err == BadRequest400
    ensures r.Ok? ==>
      var id := r.value.out.id;
      && id !in s.tweets
      && r.value.out.val == Tweet(content.value, viewer, now)
      && r.value.store.tweets == s.tweets[id := r.value.out.val]
      && r.value.store.(tweets := s.tweets, nextId := s.nextId) == s
      && Valid(r.value.store)
  {
    if Falsy(content) then Fail(BadRequest400)
    else
      var t := Tweet(content.value, viewer, now);
      Ok(Step(s.(tweets := s.tweets[s.nextId := t], nextId := s.nextId + 1), Keyed(s.nextId, t)))
  }

  // ---------------------------------------------------------------------
  // getUserTweets

  /** One listed tweet. The projection names an `ownerDetails` field the
      pipeline never builds, so no owner data is returned. */
  datatype TweetItem = TweetItem(id: Id, content: string, createdAt: int, likesCount: nat, isLiked: bool)

  function OwnerFilter(user: Id): Keyed<Tweet> -> bool {
    (e: Keyed<Tweet>) => e.val.owner == user
  }

  function Item(s: Store, viewer: Id, e: Keyed<Tweet>): TweetItem {
    TweetItem(e.id, e.val.content, e.val.createdAt, LikesCount(s, OnTweet(e.id)), IsLiked(s, viewer, OnTweet(e.id)))
  }

  function ItemCreatedAt(it: TweetItem): int {
    it.createdAt
  }

  /** The user's tweets in scan order, each with its like-derived fields. */
  function TweetItems(s: Store, viewer: Id, user: Id): (r: seq<TweetItem>)
    requires Valid(s)
    ensures |r| == |(set k | k in s.tweets && s.tweets[k].owner == user)|
    ensures forall k :: k in s.tweets && s.tweets[k].owner == user ==> Item(s, viewer, Keyed(k, s.tweets[k])) in r
    ensures forall it :: it in r ==>
      && it.id in s.tweets
      && s.tweets[it.id].owner == user
      && it == Item(s, viewer, Keyed(it.id, s.tweets[it.id]))
  {
    var owned := Filter(Entries(s.tweets, s.nextId), OwnerFilter(user));
    var items := MapSeq(owned, (e: Keyed<Tweet>) => Item(s, viewer, e));
    assert forall i :: 0 <= i < |items| ==> owned[i] in owned && items[i] == Item(s, viewer, owned[i]);
    forall k | k in s.tweets && s.tweets[k].owner == user
      ensures Item(s, viewer, Keyed(k, s.tweets[k])) in items
    {
      assert Keyed(k, s.tweets[k]) in owned;
      MapSeqHas(owned, (e: Keyed<Tweet>) => Item(s, viewer, e), Keyed(k, s.tweets[k]));
    }
    FilterEntriesCount(s.tweets, s.nextId, OwnerFilter(user));
    assert MatchingIds(s.tweets, s.nextId, OwnerFilter(user)) == set k | k in s.tweets && s.tweets[k].owner == user;
    items
  }

  /** All of a user's tweets, newest first, unpaginated. */
  function GetUserTweets(s: Store, viewer: Id, userId: RawId): (r: Result<seq<TweetItem>>)
    requires Valid(s)
    ensures r.Fail? <==> userId.Malformed?
    ensures r.Fail? ==> r.err == BadRequest400
    ensures r.Ok? ==> |r.value| == |(set k | k in s.tweets && s.tweets[k].owner == userId.id)|
    ensures r.Ok? ==> forall k :: k in s.tweets && s.tweets[k].owner == userId.id ==>
      Item(s, viewer, Keyed(k, s.tweets[k])) in r.value
    ensures r.Ok? ==> forall it :: it in r.value ==>
      && it.id in s.tweets
      && s.tweets[it.id].owner == userId.id
      && it.content == s.tweets[it.id].content
      && it.likesCount == LikesCount(s, OnTweet(it.id))
      && it.isLiked == IsLiked(s, viewer, OnTweet(it.id))
    ensures r.Ok? ==> Sorted(r.value, ItemCreatedAt, false)
  {
    if userId.Malformed? then Fail(BadRequest400)
    else
      var items := TweetItems(s, viewer, userId.id);
      SortBySameElements(items, ItemCreatedAt, false);
      Ok(SortBy(items, ItemCreatedAt, false))
  }

  /** The listed like fields agree with the likes stored against each tweet:
      the count is their number and the flag says whether the viewer owns
      one of them. */
  lemma ListedLikeFields(s: Store, viewer: Id, user: Id, it: TweetItem)
    requires Valid(s)
    requires GetUserTweets(s, viewer, ObjectId(user)).Ok?
    requires it in GetUserTweets(s, viewer, ObjectId(user)).value
    ensures it.likesCount == |LikeIdsOn(s, OnTweet(it.id))|
    ensures it.isLiked <==> exists k :: k in s.likes && s.likes[k] == Like(viewer, OnTweet(it.id))
  {
    LikesCountIsCardinality(s, OnTweet(it.id));
    IsLikedIff(s, viewer, OnTweet(it.id));
    if it.isLiked {
      var k :| k in s.likes && s.likes[k].target == OnTweet(it.id) && s.likes[k].likedBy == viewer;
      assert s.likes[k] == Like(viewer, OnTweet(it.id));
    }
  }

  // ---------------------------------------------------------------------
  // updateTweet / deleteTweet

  /** The author replaces the content; owner and creation time stay. */
  function UpdateTweet(s: Store, viewer: Id, tweetId: RawId, content: Option<string>): (r: Result<Step<Keyed<Tweet>>>)
    requires Valid(s)
    ensures Falsy(content) ==> r == Fail(BadRequest400)
    ensures tweetId.Malformed? ==> r == Fail(BadRequest400)
    ensures !Falsy(content) && tweetId.ObjectId? && tweetId.id !in s.tweets ==> r == Fail(NotFound404)
    ensures (!Falsy(content) && tweetId.ObjectId? && tweetId.id in s.tweets && s.tweets[tweetId.id].owner != viewer)
      ==> r == Fail(BadRequest400)
    ensures r.Ok? <==>
      !Falsy(content) && tweetId.ObjectId? && tweetId.id in s.tweets && s.tweets[tweetId.id].owner == viewer
    ensures r.Ok? ==>
      var id := tweetId.id;
      && r.value.out == Keyed(id, Tweet(content.value, viewer, s.tweets[id].createdAt))
      && r.value.store.tweets == s.tweets[id := r.value.out.val]
      && r.value.store.(tweets := s.tweets) == s
      && Valid(r.value.store)
  {
    if Falsy(content) then Fail(BadRequest400)
    else if tweetId.Malformed? then Fail(BadRequest400)
    else if tweetId.id !in s.tweets then Fail(NotFound404)
    else if s.tweets[tweetId.id].owner != viewer then Fail(BadRequest400)
    else
      var id := tweetId.id;
      var t := s.tweets[id].(content := content.value);
      Ok(Step(s.(tweets := s.tweets[id := t]), Keyed(id, t)))
  }

  /** The author deletes the tweet. Its likes are not removed; the response
      carries no data. */
  function DeleteTweet(s: Store, viewer: Id, tweetId: RawId): (r: Result<Step<()>>)
    requires Valid(s)
    ensures tweetId.Malformed? ==> r == Fail(BadRequest400)
    ensures tweetId.ObjectId? && tweetId.id !in s.tweets ==> r == Fail(NotFound404)
    ensures tweetId.ObjectId? && tweetId.id in s.tweets && s.tweets[tweetId.id].owner != viewer
      ==> r == Fail(BadRequest400)
    ensures r.Ok? <==> tweetId.ObjectId? && tweetId.id in s.tweets && s.tweets[tweetId.id].owner == viewer
    ensures r.Ok? ==>
      && r.value.store.tweets == s.tweets - {tweetId.id}
      && r.value.store.(tweets := s.tweets) == s
      && Valid(r.value.store)
  {
    if tweetId.Malformed? then Fail(BadRequest400)
    else if tweetId.id !in s.tweets then Fail(NotFound404)
    else if s.tweets[tweetId.id].owner != viewer then Fail(BadRequest400)
    else Ok(Step(s.(tweets := s.tweets - {tweetId.id}), ()))
  }

  /** Likes on a deleted tweet stay stored: its like count is unchanged by
      the delete. */
  lemma DeletedTweetKeepsLikes(s: Store, viewer: Id, id: Id)
    requires Valid(s)
    requires DeleteTweet(s, viewer, ObjectId(id)).Ok?
    ensures var s' := DeleteTweet(s, viewer, ObjectId(id)).value.store;
      && id !in s'.tweets
      && LikeIdsOn(s', OnTweet(id)) == LikeIdsOn(s, OnTweet(id))
      && LikesCount(s', OnTweet(id)) == LikesCount(s, OnTweet(id))
  {
  }

  /** Creating a tweet and then updating it as its author keeps the author
      and creation time and holds the new content. */
  lemma CreateThenUpdate(s: Store, viewer: Id, first: string, second: string, now: int)
    requires Valid(s)
    requires first != "" && second != ""
    ensures var c := CreateTweet(s, viewer, Some(first), now).value;
      var u := UpdateTweet(c.store, viewer, ObjectId(c.out.id), Some(second));
      && u.Ok?
      && u.value.out == Keyed(c.out.id, Tweet(second, viewer, now))
  {
  }
}

=== FILE: types.dfy ===
/** Shared vocabulary of the controllers: identifiers, optional request
    fields, the HTTP error codes the handlers throw, and the JavaScript
    truthiness and whitespace tests the guards use. */
module Types {

  /** A well-formed object identifier. Ids are handed out in increasing order,
      so a smaller id was created earlier. */
  type Id = nat

  datatype Option<+T> = None | Some(value: T)

  /** The status codes the controllers pass to `ApiError`, plus the 500 an
      uncaught exception becomes. */
  datatype Err = BadRequest400 | NotFound404 | Forbidden403 | Internal500

  datatype Result<+T> = Ok(value: T) | Fail(err: Err)

  /** An identifier as it arrives in a request: either a well-formed object id
      or a string that `isValidObjectId` rejects. */
  datatype RawId = ObjectId(id: Id) | Malformed

  /** JavaScript `!x` for an optional string field: absent or empty. */
  predicate Falsy(o: Option<string>) {
    o.None? || o.value == ""
  }

  /** The characters `String.prototype.trim` removes: the ECMAScript
      WhiteSpace and LineTerminator code points. */
  predicate IsTrimmable(c: char) {
    var n := c as int;
    n == 0x09 || n == 0x0A || n == 0x0B || n == 0x0C || n == 0x0D || n == 0x20
    || n == 0xA0 || n == 0x1680 || (0x2000 <= n <= 0x200A)
    || n == 0x2028 || n == 0x2029 || n == 0x202F || n == 0x205F
    || n == 0x3000 || n == 0xFEFF
  }

  /** `s.trim() === ""`: every character is removed by trimming. */
  predicate Blank(s: string) {
    forall i :: 0 <= i < |s| ==> IsTrimmable(s[i])
  }

  /** `field?.trim() === ""`: an absent field is NOT blank, because optional
      chaining yields `undefined`, which differs from `""`. */
  predicate BlankField(o: Option<string>) {
    o.Some? && Blank(o.value)
  }
}

=== FILE: videos.dfy ===
/** The video controller: the public feed, publishing, the detail view with
    its like-derived fields and view counting, and the owner-only update,
    delete and publish toggle. */
module Videos {
  import opened Types
  import opened Seqs
  import opened Sorting
  import opened Pagination
  import opened Entities

  // ---------------------------------------------------------------------
  // getAllVideos

  /** The integer-valued video fields a caller may name in `sortBy`. */
  datatype SortField = CreatedAt | Views | Duration

  /** The `userId` query parameter: absent, present but empty, or a
      non-empty string that is or is not a valid object id. */
  datatype UserParam = NoUserId | EmptyUserId | GivenUserId(raw: RawId)

  datatype FeedQuery = FeedQuery(
    page: Option<int>,
    limit: Option<int>,
    query: Option<string>,
    sortBy: Option<SortField>,
    sortType: Option<string>,
    userId: UserParam)

  function FieldValue(f: SortField, v: Video): int {
    match f
    case CreatedAt => v.createdAt
    case Views => v.views
    case Duration => v.duration
  }

  function FieldKey(f: SortField): Keyed<Video> -> int {
    (e: Keyed<Video>) => FieldValue(f, e.val)
  }

  /** `if (sortBy && sortType)`: the caller's sort applies only when both are given. */
  predicate CustomSort(q: FeedQuery) {
    q.sortBy.Some? && !Falsy(q.sortType)
  }

  function SortKey(q: FeedQuery): SortField {
    if CustomSort(q) then q.sortBy.value else CreatedAt
  }

  /** `sortType === "asc" ? 1 : -1`; the default sort is descending. */
  predicate SortAscending(q: FeedQuery) {
    CustomSort(q) && q.sortType.value == "asc"
  }

  /** The owner the feed matches on: the requested user, or, when no userId
      is given, the fresh id that `new ObjectId(undefined)` generates. */
  function FeedOwner(q: FeedQuery, generated: Id): Id {
    match q.userId
    case GivenUserId(ObjectId(id)) => id
    case _ => generated
  }

  /** The filter stages of the feed: the text search when `query` is given,
      the owner match, the published match, and the `$unwind` of the owner
      lookup, which drops a video whose owner has no user document. */
  predicate InFeed(s: Store, q: FeedQuery, generated: Id, textMatch: (string, Video) -> bool, v: Video) {
    && (Falsy(q.query) || textMatch(q.query.value, v))
    && v.owner == FeedOwner(q, generated)
    && v.isPublished
    && v.owner in s.users
  }

  function FeedFilter(s: Store, q: FeedQuery, generated: Id, textMatch: (string, Video) -> bool): Keyed<Video> -> bool {
    (e: Keyed<Video>) => InFeed(s, q, generated, textMatch, e.val)
  }

  /** The stored videos that pass the filters, in scan order, each once. */
  function Eligible(s: Store, q: FeedQuery, generated: Id, textMatch: (string, Video) -> bool): (r: seq<Keyed<Video>>)
    requires Valid(s)
    ensures forall e :: e in r <==>
      e.id in s.videos && e.val == s.videos[e.id] && InFeed(s, q, generated, textMatch, e.val)
    ensures |r| == |(set k | k in s.videos && InFeed(s, q, generated, textMatch, s.videos[k]))|
  {
    var p := FeedFilter(s, q, generated, textMatch);
    var eligible := Filter(Entries(s.videos, s.nextId), p);
    FilterEntriesCount(s.videos, s.nextId, p);
    assert MatchingIds(s.videos, s.nextId, p)
      == set k | k in s.videos && InFeed(s, q, generated, textMatch, s.videos[k]);
    eligible
  }

  /** The feed before windowing: exactly the stored videos that pass the
      filters, each once, ordered by the requested field and direction. */
  function VideoFeed(s: Store, q: FeedQuery, generated: Id, textMatch: (string, Video) -> bool): (r: seq<Keyed<Video>>)
    requires Valid(s)
    ensures forall e :: e in r <==>
      e.id in s.videos && e.val == s.videos[e.id] && InFeed(s, q, generated, textMatch, e.val)
    ensures Sorted(r, FieldKey(SortKey(q)), SortAscending(q))
    ensures |r| == |(set k | k in s.videos && InFeed(s, q, generated, textMatch, s.videos[k]))|
  {
    var eligible := Eligible(s, q, generated, textMatch);
    SortBySameElements(eligible, FieldKey(SortKey(q)), SortAscending(q));
    SortBy(eligible, FieldKey(SortKey(q)), SortAscending(q))
  }

  /** The feed order: `createdAt` descending unless both `sortBy` and
      `sortType` are given; then ascending on `sortBy` exactly when
      `sortType` is "asc", and descending for any other value. */
  lemma FeedOrder(s: Store, q: FeedQuery, generated: Id, textMatch: (string, Video) -> bool)
    requires Valid(s)
    ensures var r := VideoFeed(s, q, generated, textMatch);
      && (q.sortBy.None? || Falsy(q.sortType) ==>
            forall i, j :: 0 <= i < j < |r| ==> r[i].val.createdAt >= r[j].val.createdAt)
      && (q.sortBy.Some? && q.sortType == Some("asc") ==>
            forall i, j :: 0 <= i < j < |r| ==> FieldValue(q.sortBy.value, r[i].val) <= FieldValue(q.sortBy.value, r[j].val))
      && (q.sortBy.Some? && !Falsy(q.sortType) && q.sortType != Some("asc") ==>
            forall i, j :: 0 <= i < j < |r| ==> FieldValue(q.sortBy.value, r[i].val) >= FieldValue(q.sortBy.value, r[j].val))
  {
    var r := VideoFeed(s, q, generated, textMatch);
    var f := SortKey(q);
    forall i, j | 0 <= i < j < |r|
      ensures InOrder(FieldValue(f, r[i].val), FieldValue(f, r[j].val), SortAscending(q))
    {
      assert InOrder(FieldKey(f)(r[i]), FieldKey(f)(r[j]), SortAscending(q));
    }
  }

  /** The public feed: a malformed userId is rejected before the store is
      read; otherwise a page of published videos of the matched owner. An
      empty userId skips the validity check (it is falsy) and then makes
      `new ObjectId("")` throw, which becomes a 500. */
  function GetAllVideos(s: Store, q: FeedQuery, generated: Id, textMatch: (string, Video) -> bool): (r: Result<Page<Keyed<Video>>>)
    requires Valid(s)
    ensures r.Fail? <==> q.userId == GivenUserId(Malformed) || q.userId == EmptyUserId
    ensures q.userId == GivenUserId(Malformed) ==> r == Fail(BadRequest400)
    ensures q.userId == EmptyUserId ==> r == Fail(Internal500)
    ensures r.Ok? ==> forall e :: e in r.value.items ==>
      && e.id in s.videos && s.videos[e.id] == e.val
      && e.val.isPublished
      && e.val.owner == FeedOwner(q, generated)
    ensures r.Ok? ==> r.value.totalItems == |VideoFeed(s, q, generated, textMatch)|
    ensures r.Ok? ==>
      r.value.totalItems == |(set k | k in s.videos && InFeed(s, q, generated, textMatch, s.videos[k]))|
    ensures r.Ok? ==>
      r.value.items == Slice(VideoFeed(s, q, generated, textMatch), EffectivePage(q.page), EffectiveLimit(q.limit))
  {
    if q.userId == GivenUserId(Malformed) then Fail(BadRequest400)
    else if q.userId == EmptyUserId then Fail(Internal500)
    else Ok(Paginate(VideoFeed(s, q, generated, textMatch), q.page, q.limit))
  }

  /** Without a userId the feed matches a freshly generated owner id, which
      owns nothing, so it is always empty. */
  lemma FeedWithoutUserIdIsEmpty(s: Store, q: FeedQuery, generated: Id, textMatch: (string, Video) -> bool)
    requires Valid(s)
    requires q.userId == NoUserId
    requires forall k :: k in s.videos ==> s.videos[k].owner != generated
    ensures GetAllVideos(s, q, generated, textMatch) == Ok(Paginate([], q.page, q.limit))
  {
  }

  // ---------------------------------------------------------------------
  // publishAVideo

  /** What the media store reports for an uploaded file. */
  datatype Upload = Upload(url: string, publicId: string, duration: int)

  /** The multipart fields a request carries: for each of the two file
      fields, the stored file's path when the field is present. */
  datatype Files = Files(videoFile: Option<string>, thumbnail: Option<string>)

  /** `files` is `None` when the request has no files object at all. */
  datatype PublishForm = PublishForm(
    title: Option<string>,
    description: Option<string>,
    files: Option<Files>)

  /** Reading `req.files?.videoFile[0]` or `req.files?.thumbnail[0]` throws
      when the files object exists but lacks the field; both paths are read
      before either is checked. */
  predicate MissingFileField(form: PublishForm) {
    form.files.Some? && (form.files.value.videoFile.None? || form.files.value.thumbnail.None?)
  }

  /** The video file's path; undefined without a files object. */
  function VideoFilePath(form: PublishForm): Option<string> {
    if form.files.Some? then form.files.value.videoFile else None
  }

  function ThumbnailPath(form: PublishForm): Option<string> {
    if form.files.Some? then form.files.value.thumbnail else None
  }

  /** Publishing stores a new, unpublished video owned by the viewer.
      `videoUpload` and `thumbnailUpload` are the media store's answers to the
      two uploads (`None` when an upload failed); `now` is the creation time. */
  function PublishAVideo(
    s: Store, viewer: Id, form: PublishForm,
    videoUpload: Option<Upload>, thumbnailUpload: Option<Upload>, now: int): (r: Result<Step<Keyed<Video>>>)
    requires Valid(s)
    ensures BlankField(form.title) || BlankField(form.description) ==> r == Fail(BadRequest400)
    ensures !BlankField(form.title) && !BlankField(form.description) && MissingFileField(form)
      ==> r == Fail(Internal500)
    ensures (!BlankField(form.title) && !BlankField(form.description) && !MissingFileField(form)
             && (Falsy(VideoFilePath(form)) || Falsy(ThumbnailPath(form))))
      ==> r == Fail(BadRequest400)
    ensures (!BlankField(form.title) && !BlankField(form.description) && !MissingFileField(form)
             && !Falsy(VideoFilePath(form)) && !Falsy(ThumbnailPath(form))
             && (videoUpload.None? || thumbnailUpload.None?))
      ==> r == Fail(Internal500)
    ensures r.Ok? <==>
      && form.title.Some? && form.description.Some?
      && !BlankField(form.title) && !BlankField(form.description)
      && form.files.Some?
      && !Falsy(form.files.value.videoFile) && !Falsy(form.files.value.thumbnail)
      && videoUpload.Some? && thumbnailUpload.Some?
    ensures r.Ok? ==>
      var id := r.value.out.id;
      var v := r.value.out.val;
      && id !in s.videos
      && r.value.store.videos == s.videos[id := v]
      && v.owner == viewer && !v.isPublished && v.views == 0
      && v.title == form.title.value && v.description == form.description.value
      && v.videoFile == Asset(videoUpload.value.url, videoUpload.value.publicId)
      && v.thumbnail == Asset(thumbnailUpload.value.url, thumbnailUpload.value.publicId)
      && v.duration == videoUpload.value.duration
      && v.createdAt == now
      && r.value.store.(videos := s.videos, nextId := s.nextId) == s
      && Valid(r.value.store)
  {
    if BlankField(form.title) || BlankField(form.description) then Fail(BadRequest400)
    else if MissingFileField(form) then Fail(Internal500)
    else if Falsy(VideoFilePath(form)) then Fail(BadRequest400)
    else if Falsy(ThumbnailPath(form)) then Fail(BadRequest400)
    else if videoUpload.None? then Fail(Internal500)
    else if thumbnailUpload.None? then Fail(Internal500)
    // The schema rejects a document without title or description, and the
    // rejected `Video.create` surfaces as a 500.
    else if form.title.None? || form.description.None? then Fail(Internal500)
    else
      var file := videoUpload.value;
      var thumb := thumbnailUpload.value;
      var v := Video(form.title.value, form.description.value, file.duration, 0, false,
                     Asset(file.url, file.publicId), Asset(thumb.url, thumb.publicId), viewer, now);
      var id := s.nextId;
      Ok(Step(s.(videos := s.videos[id := v], nextId := id + 1), Keyed(id, v)))
  }

  // ---------------------------------------------------------------------
  // getVideoById

  datatype VideoDetail = VideoDetail(id: Id, video: Video, likesCount: nat, isLiked: bool)

  /** The detail document, computed before the view is counted. The
      not-found check of the handler tests an array and never fires: an
      absent video yields no document, and the view counting still runs. */
  function Detail(s: Store, viewer: Id, id: Id): Option<VideoDetail> {
    if id in s.videos then
      Some(VideoDetail(id, s.videos[id], LikesCount(s, OnVideo(id)), IsLiked(s, viewer, OnVideo(id))))
    else None
  }

  /** `$inc: { views: 1 }` on the video, when it exists. */
  function CountView(videos: map<Id, Video>, id: Id): map<Id, Video> {
    if id in videos then videos[id := videos[id].(views := videos[id].views + 1)] else videos
  }

  /** `$addToSet: { watchHistory: videoId }` on the viewer, when they exist. */
  function RecordHistory(users: map<Id, User>, viewer: Id, id: Id): map<Id, User> {
    if viewer in users then users[viewer := User(AddToSet(users[viewer].watchHistory, id))] else users
  }

  function GetVideoById(s: Store, viewer: Id, videoId: RawId): (r: Result<Step<Option<VideoDetail>>>)
    requires Valid(s)
    ensures r.Fail? <==> videoId.Malformed?
    ensures r.Fail? ==> r.err == BadRequest400
    ensures r.Ok? ==>
      var id := videoId.id;
      var d := r.value.out;
      && (d.Some? <==> id in s.videos)
      && (d.Some? ==>
            && d.value.id == id && d.value.video == s.videos[id]
            && d.value.likesCount == |LikeIdsOn(s, OnVideo(id))|
            && (d.value.isLiked <==>
                  exists k :: k in s.likes && s.likes[k].target == OnVideo(id) && s.likes[k].likedBy == viewer))
    ensures r.Ok? ==>
      var id := videoId.id;
      var s' := r.value.store;
      && s'.videos.Keys == s.videos.Keys
      && (id in s.videos ==>
            s'.videos[id] == s.videos[id].(views := s.videos[id].views + 1))
      && (forall k :: k in s.videos && k != id ==> s'.videos[k] == s.videos[k])
      && s'.users.Keys == s.users.Keys
      && (viewer in s.users ==>
            var h := s.users[viewer].watchHistory;
            var h' := s'.users[viewer].watchHistory;
            && multiset(h')[id] == 1
            && (forall x :: x in h' <==> x in h || x == id))
      && (forall u :: u in s.users && u != viewer ==> s'.users[u] == s.users[u])
      && s'.(videos := s.videos, users := s.users) == s
      && Valid(s')
  {
    if videoId.Malformed? then Fail(BadRequest400)
    else
      var id := videoId.id;
      var d := Detail(s, viewer, id);
      if d.Some? then
        LikesCountIsCardinality(s, OnVideo(id));
        IsLikedIff(s, viewer, OnVideo(id));
        Ok(Step(s.(videos := CountView(s.videos, id), users := RecordHistory(s.users, viewer, id)), d))
      else
        Ok(Step(s.(videos := CountView(s.videos, id), users := RecordHistory(s.users, viewer, id)), d))
  }

  /** Viewing a video twice counts two views but leaves one watch-history
      entry for it. */
  lemma RepeatedViews(s: Store, viewer: Id, id: Id)
    requires Valid(s)
    requires id in s.videos && viewer in s.users
    ensures var s1 := GetVideoById(s, viewer, ObjectId(id)).value.store;
      var s2 := GetVideoById(s1, viewer, ObjectId(id)).value.store;
      && s2.videos[id].views == s.videos[id].views + 2
      && multiset(s2.users[viewer].watchHistory)[id] == 1
  {
  }

  // ---------------------------------------------------------------------
  // updateVideo

  /** `thumbnailPath` is `None` when the request carries no file. */
  datatype UpdateForm = UpdateForm(title: Option<string>, description: Option<string>, thumbnailPath: Option<string>)

  /** The updated video and the media public ids handed to the deletion hook,
      whose answer the handler ignores. */
  datatype Replaced = Replaced(video: Keyed<Video>, discarded: seq<string>)

  /** The owner may replace title, description and thumbnail. A missing video
      fails the owner comparison (`video?.owner` is undefined) and so yields
      403 rather than 404. A request without a file makes `req.file.path`
      throw (500). `upload` is the media store's answer to the new
      thumbnail's upload. */
  function UpdateVideo(s: Store, viewer: Id, videoId: RawId, form: UpdateForm, upload: Option<Upload>): (r: Result<Step<Replaced>>)
    requires Valid(s)
    ensures videoId.Malformed? ==> r == Fail(BadRequest400)
    ensures videoId.ObjectId? && (Falsy(form.title) || Falsy(form.description)) ==> r == Fail(BadRequest400)
    ensures (videoId.ObjectId? && !Falsy(form.title) && !Falsy(form.description)
             && (videoId.id !in s.videos || s.videos[videoId.id].owner != viewer))
      ==> r == Fail(Forbidden403)
    ensures (videoId.ObjectId? && !Falsy(form.title) && !Falsy(form.description)
             && videoId.id in s.videos && s.videos[videoId.id].owner == viewer)
      ==> (&& (form.thumbnailPath.None? ==> r == Fail(Internal500))
           && (form.thumbnailPath == Some("") ==> r == Fail(BadRequest400))
           && (!Falsy(form.thumbnailPath) && upload.None? ==> r == Fail(BadRequest400)))
    ensures r.Ok? <==>
      && videoId.ObjectId? && !Falsy(form.title) && !Falsy(form.description)
      && videoId.id in s.videos && s.videos[videoId.id].owner == viewer
      && form.thumbnailPath.Some? && form.thumbnailPath.value != "" && upload.Some?
    ensures r.Ok? ==> videoId.id in r.value.store.videos
    ensures r.Ok? ==>
      var id := videoId.id;
      var old_ := s.videos[id];
      var v := r.value.store.videos[id];
      && r.value.out.video == Keyed(id, v)
      && v.title == form.title.value && v.description == form.description.value
      && v.thumbnail == Asset(upload.value.url, upload.value.publicId)
      && v.owner == old_.owner && v.views == old_.views && v.isPublished == old_.isPublished
      && v.videoFile == old_.videoFile && v.duration == old_.duration && v.createdAt == old_.createdAt
      && r.value.store.videos.Keys == s.videos.Keys
      && (forall k :: k in s.videos && k != id ==> r.value.store.videos[k] == s.videos[k])
      && r.value.store.(videos := s.videos) == s
      && r.value.out.discarded == [old_.thumbnail.publicId]
      && Valid(r.value.store)
  {
    if videoId.Malformed? then Fail(BadRequest400)
    else if Falsy(form.title) || Falsy(form.description) then Fail(BadRequest400)
    else if videoId.id !in s.videos || s.videos[videoId.id].owner != viewer then Fail(Forbidden403)
    // `req.file.path` throws when no file was sent.
    else if form.thumbnailPath.None? then Fail(Internal500)
    else if Falsy(form.thumbnailPath) then Fail(BadRequest400)
    else if upload.None? then Fail(BadRequest400)
    else
      var id := videoId.id;
      var old_ := s.videos[id];
      var v := old_.(title := form.title.value, description := form.description.value,
                     thumbnail := Asset(upload.value.url, upload.value.publicId));
      Ok(Step(s.(videos := s.videos[id := v]), Replaced(Keyed(id, v), [old_.thumbnail.publicId])))
  }

  // ---------------------------------------------------------------------
  // deleteVideo

  /** The video, every like on it and every comment on it are removed. The
      output lists the media public ids handed to the deletion hook
      (thumbnail, then video file); the hook's answers are ignored. Likes on
      the removed comments are not touched. */
  function DeleteVideo(s: Store, viewer: Id, videoId: RawId): (r: Result<Step<seq<string>>>)
    requires Valid(s)
    ensures videoId.Malformed? ==> r == Fail(BadRequest400)
    ensures videoId.ObjectId? && videoId.id !in s.videos ==> r == Fail(NotFound404)
    ensures videoId.ObjectId? && videoId.id in s.videos && s.videos[videoId.id].owner != viewer
      ==> r == Fail(Forbidden403)
    ensures r.Ok? <==> videoId.ObjectId? && videoId.id in s.videos && s.videos[videoId.id].owner == viewer
    ensures r.Ok? ==>
      var id := videoId.id;
      var s' := r.value.store;
      && s'.videos.Keys == s.videos.Keys - {id}
      && (forall k :: k in s'.videos ==> s'.videos[k] == s.videos[k])
      && (forall k :: k in s'.likes ==> s'.likes[k].target != OnVideo(id))
      && (forall k :: k in s.likes && s.likes[k].target != OnVideo(id) ==> k in s'.likes && s'.likes[k] == s.likes[k])
      && s'.likes.Keys <= s.likes.Keys
      && (forall k :: k in s'.comments ==> s'.comments[k].video != id)
      && (forall k :: k in s.comments && s.comments[k].video != id ==> k in s'.comments && s'.comments[k] == s.comments[k])
      && s'.comments.Keys <= s.comments.Keys
      && s'.(videos := s.videos, likes := s.likes, comments := s.comments) == s
      && r.value.out == [s.videos[id].thumbnail.publicId, s.videos[id].videoFile.publicId]
      && Valid(s')
  {
    if videoId.Malformed? then Fail(BadRequest400)
    else if videoId.id !in s.videos then Fail(NotFound404)
    else if s.videos[videoId.id].owner != viewer then Fail(Forbidden403)
    else
      var id := videoId.id;
      var v := s.videos[id];
      var likes := map k | k in s.likes && s.likes[k].target != OnVideo(id) :: s.likes[k];
      var comments := map k | k in s.comments && s.comments[k].video != id :: s.comments[k];
      Ok(Step(s.(videos := s.videos - {id}, likes := likes, comments := comments),
              [v.thumbnail.publicId, v.videoFile.publicId]))
  }

  /** After a delete, looking the video up finds nothing and nothing is
      counted against it any more. */
  lemma DeletedVideoIsGone(s: Store, viewer: Id, reader: Id, id: Id)
    requires Valid(s)
    requires DeleteVideo(s, viewer, ObjectId(id)).Ok?
    ensures var s' := DeleteVideo(s, viewer, ObjectId(id)).value.store;
      && GetVideoById(s', reader, ObjectId(id)).value.out == None
      && LikesCount(s', OnVideo(id)) == 0
  {
    var s' := DeleteVideo(s, viewer, ObjectId(id)).value.store;
    assert LikeIdsOn(s', OnVideo(id)) == {};
    LikesCountIsCardinality(s', OnVideo(id));
  }

  // ---------------------------------------------------------------------
  // togglePublishStatus

  /** The owner flips `isPublished`; the output is the new value. */
  function TogglePublishStatus(s: Store, viewer: Id, videoId: RawId): (r: Result<Step<bool>>)
    requires Valid(s)
    ensures videoId.Malformed? ==> r == Fail(BadRequest400)
    ensures videoId.ObjectId? && videoId.id !in s.videos ==> r == Fail(NotFound404)
    ensures videoId.ObjectId? && videoId.id in s.videos && s.videos[videoId.id].owner != viewer
      ==> r == Fail(Forbidden403)
    ensures r.Ok? <==> videoId.ObjectId? && videoId.id in s.videos && s.videos[videoId.id].owner == viewer
    ensures r.Ok? ==>
      var id := videoId.id;
      var s' := r.value.store;
      && id in s'.videos
      && s'.videos[id].isPublished == !s.videos[id].isPublished
      && r.value.out == s'.videos[id].isPublished
      && s'.videos[id].(isPublished := s.videos[id].isPublished) == s.videos[id]
      && s'.videos.Keys == s.videos.Keys
      && (forall k :: k in s.videos && k != id ==> s'.videos[k] == s.videos[k])
      && s'.(videos := s.videos) == s
      && Valid(s')
  {
    if videoId.Malformed? then Fail(BadRequest400)
    else if videoId.id !in s.videos then Fail(NotFound404)
    else if s.videos[videoId.id].owner != viewer then Fail(Forbidden403)
    else
      var id := videoId.id;
      var v := s.videos[id].(isPublished := !s.videos[id].isPublished);
      Ok(Step(s.(videos := s.videos[id := v]), v.isPublished))
  }

  /** Toggling twice restores the store exactly. */
  lemma ToggleTwiceRestores(s: Store, viewer: Id, videoId: RawId)
    requires Valid(s)
    requires TogglePublishStatus(s, viewer, videoId).Ok?
    ensures var s1 := TogglePublishStatus(s, viewer, videoId).value.store;
      && TogglePublishStatus(s1, viewer, videoId).Ok?
      && TogglePublishStatus(s1, viewer, videoId).value.store == s
  {
    var s1 := TogglePublishStatus(s, viewer, videoId).value.store;
    var s2 := TogglePublishStatus(s1, viewer, videoId).value.store;
    assert s2.videos == s.videos;
  }

  /** Publish a video as `u1`; `u1` toggles it to published; `u2` then gets
      403 and the video stays published. */
  lemma PublishToggleScenario(s: Store, u1: Id, u2: Id, form: PublishForm, file: Upload, thumb: Upload, now: int)
    requires Valid(s)
    requires u1 != u2
    requires PublishAVideo(s, u1, form, Some(file), Some(thumb), now).Ok?
    ensures var p := PublishAVideo(s, u1, form, Some(file), Some(thumb), now).value;
      var a := ObjectId(p.out.id);
      var t1 := TogglePublishStatus(p.store, u1, a);
      && !p.store.videos[p.out.id].isPublished
      && t1 == Ok(t1.value) && t1.value.out
      && TogglePublishStatus(t1.value.store, u2, a) == Fail(Forbidden403)
      && t1.value.store.videos[p.out.id].isPublished
  {
  }

  /** A video its owner has published and then toggled to public appears in
      the owner's feed when no text query is given, provided the owner has
      a user document. */
  lemma PublishedVideoJoinsFeed(
    s: Store, u: Id, form: PublishForm, file: Upload, thumb: Upload, now: int,
    generated: Id, textMatch: (string, Video) -> bool)
    requires Valid(s)
    requires u in s.users
    requires PublishAVideo(s, u, form, Some(file), Some(thumb), now).Ok?
    ensures var p := PublishAVideo(s, u, form, Some(file), Some(thumb), now).value;
      var s2 := TogglePublishStatus(p.store, u, ObjectId(p.out.id)).value.store;
      var q := FeedQuery(None, None, None, None, None, GivenUserId(ObjectId(u)));
      && p.out.id in s2.videos
      && Keyed(p.out.id, s2.videos[p.out.id]) in VideoFeed(s2, q, generated, textMatch)
  {
  }
}
